=== FILE: README.md ===
# displayplacer toggler — a Dafny model

This project models the pure logic of a small macOS helper. The helper wraps the
`displayplacer` command-line tool and toggles the desktop between two saved display
arrangements. It is driven from an Alfred launcher list. The modelled logic covers:

- **Config codec** (`config_codec.dfy`). The record of one display and its descriptor
  `id:<id> degree:<d> res:<r> [hz:<h>] scaling:<on|off> origin:<o>`.
  - `Config.to_conf` encodes; `Config.parse` decodes.
  - The decoder splits on single spaces and splits each token at its first `:`.
    The last value of a repeated key wins, as in `dict()`. `id` is renamed to `id_`.
    Keyword construction then rejects unknown keys and a missing `res`.
  - Every error case is a `ParseError` value, reported in the order `dp.py`
    raises it.
- **Layout codec** (`layout_codec.dfy`). A layout is the list of all displays.
  - `Layout.parse` keeps the lines that start with `displayplacer`. It extracts the
    `"([^"]+)"` matches from them, left to right, and parses each match.
  - `Layout.to_command` writes one command line with every descriptor in double quotes.
- **Footprint** (`footprint.dfy`, on a generic stable insertion sort in `sorting.dfy`).
  The footprint is the `(id, origin)` pair of every display, stably sorted by a key
  derived from the id.
- **Switch** (`switch.dfy`). If the live footprint equals that of template 0, take
  template 1; otherwise take template 0. Also `Template.load`.
- **Template file** (`template_store.dfy`). Both programs keep the non-blank lines, as
  judged by `str.strip()`, unchanged and in order.
- **Launcher list** (`launcher.dfy`). The Alfred item list built by `dp.py` and by
  `filter.py`.
- **Text helpers** (`text.dfy`). Python's `str.split`, `str.split(sep, 1)`,
  `str.strip`, `startswith` and `str(int)`, stated over `seq<char>`.

Python's `hash` is deterministic within one run, so it is a parameter
`hash: string -> int`.

Fields are kept as the raw text that followed each key, because `Config.parse`
converts nothing. A field no token sets holds `None`, which stands for the dataclass
default:

- origin `(0,0)`, which prints as `(0, 0)` with a space;
- hz `-1`, which is not printed;
- color depth `-1`, which is never printed;
- scaling `False`, which prints as `off`;
- degree `0`.

Two points of the program's behaviour that the model keeps:

- `id_` is an accepted key. `Config(**kv)` takes a raw `id_` because it is a
  dataclass field, and the renamed `id` then overwrites it.
- Too few templates raises `IndexError`. `switch` indexes `template_layouts[0]` and
  `[1]`, so an empty list fails at the first index and a single matching template at
  the second. These are modelled as `NoTemplates` / `NoSecondTemplate`.

## Model

| member | source | states |
|---|---|---|
| ConfigCodec.RenderTokens | dp.py:31-39 | the descriptor is the `key:value` tokens id, degree, res, optional hz, scaling, origin joined by single spaces |
| ConfigCodec.ToConf | dp.py:31-39 | `Config.to_conf`; its contract is stated by `RenderTokens` (token order), `ConfPairsValues` (each token's value) and `ParseToConf` (it is read back by `ParseConfig`) |
| ConfigCodec.ParseConfigOutcome | dp.py:41-45 | parse succeeds exactly when every token has a `:`, `id` and `res` occur and every key is a record field or `id`. Each field is the value of the last token with its key, or the default. On failure it reports the first colon-less token, else the missing id, else the first unknown key, else the missing res |
| ConfigCodec.ParseConfig | dp.py:41-45 | `Config.parse`; its contract, success condition, field values and error order, is stated by `ParseConfigOutcome` |
| ConfigCodec.FieldsLastWins | dp.py:43 | the dictionary built from the pairs maps each key to the value of its last occurrence |
| ConfigCodec.EntriesOfRender | dp.py:31-43 | splitting an encoded space-free config on spaces and colons gives back exactly its key/value pairs, in order |
| ConfigCodec.ConfPairsValues | dp.py:31-39 | in an encoded config each rendered key carries its field's text and color_depth does not occur |
| ConfigCodec.ParseRender | dp.py:31-45 | decoding an encoded config gives back id, res, hz and origin, and the degree and scaling as rendered text; the color depth returns to its default |
| ConfigCodec.ParseToConf | dp.py:31-45 | `parse(to_conf(c))` succeeds, with the normalisation `Reparsed`, for every config whose fields hold no space and whose origin was set |
| ConfigCodec.DefaultOriginLastToken | dp.py:25-38 | with the default origin the descriptor ends in ` origin:(0, 0)`, a piece containing a space |
| ConfigCodec.DefaultOriginUnpaired | dp.py:38-43 | the default origin leaves a last token `0)` without `:` |
| ConfigCodec.DefaultOriginNeverReparses | dp.py:25-45 | a config whose origin was never set cannot be parsed back from its own descriptor |
| ConfigCodec.ScalingOn | dp.py:37 | definition of the truthiness test on the scaling field: the default `False` is falsy and a raw string is truthy exactly when non-empty; its consequences are stated by `ScalingOffReadsBackOn` and `ScalingOffTurnsOn` |
| ConfigCodec.ScalingText | dp.py:37 | definition of the printed scaling value, `on` exactly when the field is truthy; `ScalingOffReadsBackOn` states that a raw `off` prints as `on` |
| ConfigCodec.ScalingOffReadsBackOn | dp.py:37-45 | a raw scaling value `off` is truthy, so it reads back as `on` after one round trip |
| ConfigCodec.RenderReadBack | dp.py:31-39 | a decoded config renders the same as the config it came from, apart from the scaling token |
| ConfigCodec.RenderDiffers | dp.py:37 | for every config, the scaling token is visible: with `off` the descriptor is one character longer than with `on`, so the two differ |
| ConfigCodec.ScalingOffTurnsOn | dp.py:37 | as written, an `off` display's descriptor changes after parse and re-encode |
| ConfigCodec.IntendedRoundTrip | dp.py:28-45 | with scaling rendered from the reported state, the scaling survives a round trip and a decoded descriptor re-encodes to itself |
| LayoutCodec.Quoted | dp.py:14 | every regex match is non-empty and quote-free |
| LayoutCodec.QuotedRun | dp.py:14 | a quoted quote-free run is matched whole, and the scan resumes after it |
| LayoutCodec.QuotedSkip | dp.py:14 | text without quotes yields no match |
| LayoutCodec.QuotedJoin | dp.py:60-68 | quoted descriptors joined by spaces are matched again, one by one, in order |
| LayoutCodec.Descriptors | dp.py:57-60 | every descriptor is non-empty and quote-free; that only lines starting with `displayplacer` contribute, line by line, is carried by `DescriptorsAppend`, `NoCommandLineGivesEmptyLayout` and `NoiseLineDropped` |
| LayoutCodec.DescriptorsAppend | dp.py:57-60 | descriptors are gathered line by line, in line order |
| LayoutCodec.Collect | dp.py:57-61 | the list comprehension yields all values when every parse succeeds; otherwise it raises the first error |
| LayoutCodec.ParseLayout | dp.py:55-61 | the layout has one config per descriptor, in order, exactly when every descriptor parses; otherwise it fails with the first failing descriptor's error |
| LayoutCodec.ToCommand | dp.py:67-68 | `Layout.to_command`; its contract is stated by `Encodings`, `CommandLineShape`, `CommandLineOneLine` and `CommandRoundTrip` (it is read back by `ParseLayout`) |
| LayoutCodec.NoiseLineDropped | dp.py:58-59 | a line not starting with the tool's name, between two other lines, contributes no descriptor |
| LayoutCodec.LeadingNoiseLineDropped | dp.py:58-59 | such a line as the first line of the text, where the tool's header lines sit, contributes no descriptor |
| LayoutCodec.TrailingNoiseLineDropped | dp.py:58-59 | such a line as the last line of the text contributes no descriptor |
| LayoutCodec.NoiseLineIgnored | dp.py:56-61 | such a line leaves the parsed layout unchanged wherever it sits: between two lines, first, last, or as the whole text, which parses to the empty layout |
| LayoutCodec.NoCommandLineGivesEmptyLayout | dp.py:59 | text with no line starting with the tool's name yields no descriptors |
| LayoutCodec.Encodings | dp.py:68 | the command holds each display's `to_conf`, in layout order |
| LayoutCodec.ToConfFreeOf | dp.py:31-39 | an encoded config is non-empty and holds a quote or line break only if a field does |
| LayoutCodec.EncodingsFree | dp.py:68 | the descriptors of a clean layout are non-empty and hold no quote or line break |
| LayoutCodec.CommandLineOneLine | dp.py:68 | the command is a single line |
| LayoutCodec.CommandLineShape | dp.py:59-68 | the command starts with `displayplacer`, and its regex matches are exactly its descriptors |
| LayoutCodec.CommandLineDescriptors | dp.py:57-68 | parsing the command line finds exactly the descriptors written into it |
| LayoutCodec.CommandRoundTrip | dp.py:55-68 | `Layout.parse(to_command(l))` succeeds with one decoded config per display, in order |
| StableSort.SortBySorts | dp.py:65 | `sorted` returns a permutation of its input that is ordered by key |
| StableSort.SortBy | dp.py:65 | `sorted(..., key=...)` keeps the length; with `SortBySorts` and `SortByStable` the result is ordered by key, a permutation of the input, and stable per key; with distinct keys `SortedUnique` makes it the only such order |
| StableSort.SortByStable | dp.py:65 | `sorted` is stable: elements with equal key keep their input order |
| StableSort.SortedUnique | dp.py:65 | with distinct keys there is only one sorted arrangement of a multiset |
| StableSort.SortByPermutation | dp.py:65 | with distinct keys the sorted result does not depend on the input order |
| StableSort.SortByMap | dp.py:65 | sorting then projecting equals projecting then sorting by the projected key |
| Footprints.FootprintSortsPlacements | dp.py:63-65 | the footprint is the `(id, origin)` pairs sorted by the key of the id |
| Footprints.Footprint | dp.py:63-65 | `Layout.footprint`; its contract is stated by `FootprintSortsPlacements`, `FootprintIsSortedPlacements` and `FootprintEqualIff` |
| Footprints.FootprintIsSortedPlacements | dp.py:63-65 | the footprint holds every display's `(id, origin)` once, ordered by key, with equal keys in layout order |
| Footprints.FootprintIgnoresDetails | dp.py:65 | only ids and origins matter to the footprint |
| Footprints.FootprintPermutationInvariant | dp.py:65 | with distinct keys, reordering the displays does not change the footprint |
| Footprints.FootprintEqualIff | dp.py:65-74 | with distinct keys, footprints are equal exactly when the layouts have the same `(id, origin)` pairs in any order |
| Footprints.FootprintSeesOrigin | dp.py:65-74 | moving one display changes the footprint |
| Footprints.FootprintSurvivesCommand | dp.py:55-68 | a layout read back from its own command has the same footprint |
| Switching.Switch | dp.py:73-79 | it fails exactly when there is no template, or when the layout matches the only template. Otherwise it takes template 1 exactly when the footprint equals template 0's, else template 0 |
| Switching.SingleTemplateApplied | dp.py:73-79 | with one template and a different live layout, that template is applied |
| Switching.SwitchIgnoresExtraTemplates | dp.py:73-79 | templates after the second do not matter |
| Switching.SwitchSeesOnlyFootprint | dp.py:74 | only the live layout's footprint matters |
| Switching.SwitchToggles | dp.py:73-79 | with two templates of different footprints, switching twice alternates between them |
| Switching.SwitchAfterTemplateZero | dp.py:55-79 | when the live layout is template 0 read back from its command, the switch picks template 1 |
| Switching.LoadLayouts | dp.py:92-93 | loading yields one layout per stored line, each that line's parse, or else the error of the first line that fails |
| Switching.ParseLines | dp.py:93 | helper definition, one parse outcome per stored line; the first-failure semantics of the comprehension are carried by `LoadLayouts` |
| Switching.SavedLines | dp.py:86-90 | helper definition of the file after successive saves; the save-then-load round trip is carried by `LoadSaved` |
| Switching.SavedLineNotBlank | dp.py:89-99 | a saved line is never dropped as blank |
| Switching.LoadSaved | dp.py:86-100 | loading a file of saved clean layouts succeeds and gives each layout back, in saving order, as its command is read back |
| LayoutCodec.TrailingBreakDropped | dp.py:58 | the empty piece after a line's final line break yields no descriptor |
| LayoutCodec.SavedLineParses | dp.py:86-93 | a saved line, command plus line break, parses to the layout it was saved from, up to `Reparsed` |
| TemplateStore.StripEmptyIffBlank | dp.py:99 | `l.strip()` is empty exactly for lines of whitespace only |
| TemplateStore.NonBlankLines | dp.py:98-100 | the kept lines are exactly the non-blank ones |
| TemplateStore.NonBlankLinesSubsequence | dp.py:98-100 | the kept lines keep their file order |
| TemplateStore.NonBlankLinesCount | dp.py:98-100 | each non-blank line is kept as often as it occurs; blank lines never are |
| TemplateStore.NonBlankLinesAppend | dp.py:98-100 | the filter works line by line |
| TemplateStore.NoBlankLinesKeptWhole | dp.py:98-100 | a file without blank lines is read whole |
| TemplateStore.NonBlankLinesIdempotent | dp.py:98-100 | filtering twice is filtering once |
| TemplateStore.LoadRaw | dp.py:95-100 | a missing file yields nothing; otherwise exactly the file's non-blank lines |
| TemplateStore.LoadTemplates | filter.py:7-14 | a missing file is created empty; only non-blank lines are returned |
| TemplateStore.LoadersAgree | filter.py:7-14 | both programs read the same lines from the same file, in file order |
| Launcher.AlfredItems | dp.py:104-123 | the first item is the auto entry completing to `auto`. Then there is one item per line, titled `Config <i>`, whose subtitle and arg are the line and whose completion is `i`; so the template items' args give back the template lines, in order |
| Launcher.FilterItems | filter.py:17-38 | the same list as `AlfredItems`, except that the auto entry has no completion |
| Launcher.TitleNamesPosition | dp.py:115 | the number after `Config ` in a title is the line's index |
| Launcher.ConfigTitleInjective | dp.py:115 | different indices give different titles |
| Launcher.TitlesDistinct | dp.py:106-121 | no two items share a title |
| Launcher.AlfredItemsSnoc | dp.py:113-121 | one more stored line appends one item and leaves the others unchanged |
| Launcher.ListsAgree | filter.py:17-38 | the two programs list the same items; only the auto entry's completion differs |
| Text.Join | dp.py:68 | definition of `sep.join(parts)`; `Split` and `SplitJoin` state that it is undone by `split(sep)` on separator-free pieces |
| Text.Split | dp.py:58 | `split(sep)` yields at least one piece; the pieces hold no separator and joined by it give back the text |
| Text.SplitJoin | dp.py:43 | splitting a join of separator-free pieces gives back the pieces |
| Text.SplitOnce | dp.py:43 | `split(':', 1)` yields one piece exactly when there is no `:`; otherwise a colon-free key and the rest |
| Text.StartsWith | dp.py:59 | definition of `line.startswith(prefix)`; `CommandLineShape` states that the command written by `to_command` passes it, and `NoiseLineDropped` that a line failing it contributes nothing |
| Text.Strip | dp.py:99 | `strip()` is empty exactly for whitespace-only text; otherwise it starts and ends with a non-space |
| Text.NatText | dp.py:115 | `str(i)` for a natural `i` is non-empty decimal digits with no leading zero; `NatTextValue` states that they read back as `i` |
| Text.NatTextValue | dp.py:115 | `str(i)` is decimal digits that read back as `i` |

## Left out

- Running the tool (`subprocess` in `Layout.run`, `displayplacer list`) is left out. The model starts from the text the tool prints.
- The file system is left out: `mkdir`, `touch`, `open`, `readlines`, and `expanduser`. A file is modelled as the list of lines `readlines` returns, or `None` when it does not exist.
- Creating the directory and opening the file in `Template.save` are left out; what it appends, the command and a line break, is modelled as `SavedLines`.
- `argparse`, the `main` entry points, the `stderr` messages of `switch`, and `json.dumps` of the item list are left out. They are I/O.
- The item list's JSON wrapper `{"items": ...}` is left out: the model returns the items themselves.
- `Layout.switch` mutates `self.configs`. The model returns the chosen template instead, as a `Decision`.
- Python's `hash` is a parameter, because its values are not fixed across runs.
- Footprints.FootprintPermutationInvariant: needs the ids' keys to be distinct. When two ids share a key, the stable sort keeps their layout order, so the footprint then depends on it.
- LayoutCodec.CommandRoundTrip: requires every field to be free of spaces, quotes and line breaks, and every origin to be set. Without an origin the descriptor ends in `origin:(0, 0)`, which cannot be parsed back (`DefaultOriginNeverReparses`).
- LayoutCodec.ToCommand keeps the scaling rendering as written, because the footprint and the switch never look at scaling; the corrected encoder is `ConfigCodec.ToConfIntended`.
- The color depth is never written by `to_conf`, so it does not survive a round trip (`ParseRender`).

## Findings

| source | as written | input that shows it | evidently intended | confidence | as-written member | corrected member |
|---|---|---|---|---|---|---|
| dp.py:37, dp.py:43-45 | `to_conf` prints `scaling:on` when `self.scaling` is truthy, but `parse` stores the raw string, and the string `off` is truthy | a display reported as `id:A degree:0 res:1x1 scaling:off origin:(0,0)`: parsed and re-encoded, it prints `scaling:on` | scaling prints `on` exactly when the tool reported `on` | not executed | ConfigCodec.ScalingOffTurnsOn | ConfigCodec.IntendedRoundTrip |

=== FILE: config_codec.dfy ===
/** One display's descriptor, `id:<id> degree:<d> res:<r> [hz:<h>] scaling:<on|off> origin:<o>`,
    and the structured record it is read into.

    The parser keeps every value as the raw text that followed the key, exactly as the
    program does; a field that no token sets keeps the record's default, written `None`. */
module ConfigCodec {
  import opened Wrappers
  import opened Text

  /** One display. `None` is the dataclass default: origin `(0, 0)`, hz `-1` (unset),
      color depth `-1`, scaling `False`, degree `0`. */
  datatype Config = Config(
    id: string,
    res: string,
    origin: Option<string>,
    hz: Option<string>,
    colorDepth: Option<string>,
    scaling: Option<string>,
    degree: Option<string>)

  /** Why a descriptor cannot be read; each is an exception in dp.py. */
  datatype ParseError =
    | MalformedToken(token: string)  // a token without ':' (dict() is handed a 1-element piece)
    | MissingId                      // no `id` key to pop
    | UnknownKey(key: string)        // a keyword the record does not have
    | MissingRes                     // the record's one required field besides the id

  /** How the default origin, the tuple `(0, 0)`, prints: with a space after the comma. */
  const DefaultOriginText: string := "(0, 0)"

  /** How the default degree, the integer `0`, prints. */
  const DefaultDegreeText: string := "0"

  /** Keyword names the record accepts once `id` has been renamed to `id_`. */
  const FieldNames: set<string> := {"id_", "res", "origin", "hz", "color_depth", "scaling", "degree"}

  /** A descriptor key the parser lets through: `id`, which it renames, or a field name.
      A raw `id_` is accepted too and then overwritten by the renamed `id`. */
  predicate AcceptedKey(k: string)
  {
    k == "id" || k in FieldNames
  }

  // ---------------------------------------------------------------------------
  // Encoding

  function DegreeText(c: Config): string
  {
    match c.degree
    case None => DefaultDegreeText
    case Some(d) => d
  }

  function OriginText(c: Config): string
  {
    match c.origin
    case None => DefaultOriginText
    case Some(o) => o
  }

  /** Python truthiness of the scaling field: the default `False` is falsy, and a raw
      string is truthy exactly when it is non-empty, so a raw "off" counts as on. */
  predicate ScalingOn(c: Config)
  {
    c.scaling.Some? && c.scaling.value != ""
  }

  function ScalingText(c: Config): string
  {
    if ScalingOn(c) then "on" else "off"
  }

  /** One `key:value` token. */
  function Token(key: string, value: string): string
  {
    key + ":" + value
  }

  /** The descriptor of `c` with `scaling` as the scaling token's value, built the way the
      program appends one ` key:value` piece after another. */
  function Render(c: Config, scaling: string): string
  {
    var head := Token("id", c.id) + " " + Token("degree", DegreeText(c)) + " " + Token("res", c.res);
    var withHz := if c.hz.Some? then head + " " + Token("hz", c.hz.value) else head;
    withHz + " " + Token("scaling", scaling) + " " + Token("origin", OriginText(c))
  }

  /** `Config.to_conf`: the descriptor the external tool accepts; scaling prints by
      truthiness. */
  function ToConf(c: Config): string
  {
    Render(c, ScalingText(c))
  }

  /** The key/value pairs a config renders, in the order the tool expects: id, degree, res,
      hz only when set, scaling, origin. The color depth is never rendered. */
  function ConfPairs(c: Config, scaling: string): seq<(string, string)>
  {
    [("id", c.id), ("degree", DegreeText(c)), ("res", c.res)]
    + (if c.hz.Some? then [("hz", c.hz.value)] else [])
    + [("scaling", scaling), ("origin", OriginText(c))]
  }

  /** One token per pair. */
  function TokensOf(ps: seq<(string, string)>): (toks: seq<string>)
    ensures |toks| == |ps|
    ensures forall i :: 0 <= i < |ps| ==> toks[i] == Token(ps[i].0, ps[i].1)
  {
    seq(|ps|, i requires 0 <= i < |ps| => Token(ps[i].0, ps[i].1))
  }

  /** The tokens of a descriptor. */
  function ConfTokens(c: Config, scaling: string): seq<string>
  {
    TokensOf(ConfPairs(c, scaling))
  }

  /** The descriptor is the tokens of its pairs, in order, separated by single spaces. */
  lemma RenderTokens(c: Config, scaling: string)
    ensures Render(c, scaling) == Join(ConfTokens(c, scaling), ' ')
  {
    var a, b, d := Token("id", c.id), Token("degree", DegreeText(c)), Token("res", c.res);
    var sc, o := Token("scaling", scaling), Token("origin", OriginText(c));
    JoinSnoc([a], b, ' ');
    JoinSnoc([a, b], d, ' ');
    var p := [a, b, d] + (if c.hz.Some? then [Token("hz", c.hz.value)] else []);
    if c.hz.Some? {
      JoinSnoc([a, b, d], Token("hz", c.hz.value), ' ');
    } else {
      assert p == [a, b, d];
    }
    JoinSnoc(p, sc, ' ');
    JoinSnoc(p + [sc], o, ' ');
    assert ConfTokens(c, scaling) == p + [sc] + [o];
  }

  // ---------------------------------------------------------------------------
  // Decoding

  /** `value.split(' ')`. */
  function Tokens(s: string): seq<string>
  {
    Split(s, ' ')
  }

  /** The key of a token: the text before its first ':'. */
  function KeyOf(t: string): string
  {
    SplitOnce(t, ':')[0]
  }

  /** The value of a token: everything after its first ':', further colons included. */
  function ValueOf(t: string): string
    requires ':' in t
  {
    SplitOnce(t, ':')[1]
  }

  /** Every token splits into a key and a value. */
  predicate AllPaired(toks: seq<string>)
  {
    forall t :: t in toks ==> ':' in t
  }

  /** `attr.split(':', 1)` of every token, once each has a ':'. */
  function Pairs(toks: seq<string>): (ps: seq<(string, string)>)
    requires AllPaired(toks)
    ensures |ps| == |toks|
    ensures forall i :: 0 <= i < |toks| ==> ps[i] == (KeyOf(toks[i]), ValueOf(toks[i]))
  {
    seq(|toks|, i requires 0 <= i < |toks| => (KeyOf(toks[i]), ValueOf(toks[i])))
  }

  /** The key/value pairs of a descriptor whose every token has a ':'. */
  function Entries(s: string): seq<(string, string)>
    requires AllPaired(Tokens(s))
  {
    Pairs(Tokens(s))
  }

  /** Every key is one the parser lets through. */
  predicate AllAccepted(ps: seq<(string, string)>)
  {
    forall i :: 0 <= i < |ps| ==> AcceptedKey(ps[i].0)
  }

  /** The value of the last pair whose key is `k`, if any: later duplicates overwrite. */
  function LastValue(ps: seq<(string, string)>, k: string): Option<string>
  {
    if |ps| == 0 then None
    else
      var later := LastValue(ps[1..], k);
      if later.Some? then later
      else if ps[0].0 == k then Some(ps[0].1)
      else None
  }

  /** Position of the first token without ':', or `|toks|`. */
  function FirstUnpaired(toks: seq<string>): (i: nat)
    ensures i <= |toks|
    ensures forall j :: 0 <= j < i ==> ':' in toks[j]
    ensures i < |toks| ==> ':' !in toks[i]
  {
    if |toks| == 0 then 0
    else if ':' !in toks[0] then 0
    else 1 + FirstUnpaired(toks[1..])
  }

  /** Position of the first pair whose key is not accepted, or `|ps|`. */
  function FirstUnknown(ps: seq<(string, string)>): (i: nat)
    ensures i <= |ps|
    ensures forall j :: 0 <= j < i ==> AcceptedKey(ps[j].0)
    ensures i < |ps| ==> !AcceptedKey(ps[i].0)
  {
    if |ps| == 0 then 0
    else if !AcceptedKey(ps[0].0) then 0
    else 1 + FirstUnknown(ps[1..])
  }

  /** `dict(ps)`: one entry per key. */
  function Fields(ps: seq<(string, string)>): map<string, string>
  {
    if |ps| == 0 then map[] else map[ps[0].0 := ps[0].1] + Fields(ps[1..])
  }

  function Get(kv: map<string, string>, k: string): Option<string>
  {
    if k in kv then Some(kv[k]) else None
  }

  /** The dictionary holds, for every key, the value of the last pair with that key. */
  lemma {:induction false} FieldsLastWins(ps: seq<(string, string)>, k: string)
    ensures Get(Fields(ps), k) == LastValue(ps, k)
  {
    if |ps| > 0 {
      FieldsLastWins(ps[1..], k);
    }
  }

  /** `Config.parse`: split on single spaces, split each token at its first ':', keep the
      last value of each key, rename `id`, and build the record from the raw strings. */
  function ParseConfig(s: string): Result<Config, ParseError>
  {
    var toks := Tokens(s);
    var bad := FirstUnpaired(toks);
    if bad < |toks| then Failure(MalformedToken(toks[bad]))
    else
      var ps := Pairs(toks);
      var kv := Fields(ps);
      if "id" !in kv then Failure(MissingId)
      else
        var unknown := FirstUnknown(ps);
        if unknown < |ps| then Failure(UnknownKey(ps[unknown].0))
        else
          if "res" !in kv then Failure(MissingRes)
          else Success(Config(kv["id"], kv["res"], Get(kv, "origin"), Get(kv, "hz"),
                              Get(kv, "color_depth"), Get(kv, "scaling"), Get(kv, "degree")))
  }

  /** What `Config.parse` yields: a record exactly when every token has a ':', an `id` and a
      `res` are present and every key is accepted; each field then holds the value of the
      last token with its key, or its default. Otherwise the first colon-less token, else
      the missing id, else the first unknown key, else the missing res is reported. */
  lemma ParseConfigOutcome(s: string)
    ensures ParseConfig(s).Success? <==>
      && AllPaired(Tokens(s))
      && LastValue(Entries(s), "id").Some?
      && AllAccepted(Entries(s))
      && LastValue(Entries(s), "res").Some?
    ensures ParseConfig(s).Success? ==>
      && AllPaired(Tokens(s))
      && Some(ParseConfig(s).value.id) == LastValue(Entries(s), "id")
      && Some(ParseConfig(s).value.res) == LastValue(Entries(s), "res")
      && ParseConfig(s).value.origin == LastValue(Entries(s), "origin")
      && ParseConfig(s).value.hz == LastValue(Entries(s), "hz")
      && ParseConfig(s).value.colorDepth == LastValue(Entries(s), "color_depth")
      && ParseConfig(s).value.scaling == LastValue(Entries(s), "scaling")
      && ParseConfig(s).value.degree == LastValue(Entries(s), "degree")
    ensures (ParseConfig(s).Failure? && ParseConfig(s).error.MalformedToken?) <==> !AllPaired(Tokens(s))
    ensures ParseConfig(s).Failure? && ParseConfig(s).error.MalformedToken? ==>
      exists i :: 0 <= i < |Tokens(s)| && Tokens(s)[i] == ParseConfig(s).error.token && ':' !in ParseConfig(s).error.token
                  && forall j :: 0 <= j < i ==> ':' in Tokens(s)[j]
    ensures ParseConfig(s) == Failure(MissingId) <==> AllPaired(Tokens(s)) && LastValue(Entries(s), "id").None?
    ensures (ParseConfig(s).Failure? && ParseConfig(s).error.UnknownKey?) <==>
      AllPaired(Tokens(s)) && LastValue(Entries(s), "id").Some? && !AllAccepted(Entries(s))
    ensures ParseConfig(s).Failure? && ParseConfig(s).error.UnknownKey? ==>
      && AllPaired(Tokens(s))
      && exists i :: 0 <= i < |Entries(s)| && Entries(s)[i].0 == ParseConfig(s).error.key && !AcceptedKey(ParseConfig(s).error.key)
                     && forall j :: 0 <= j < i ==> AcceptedKey(Entries(s)[j].0)
  {
    if AllPaired(Tokens(s)) {
      var ps := Entries(s);
      FieldsLastWins(ps, "id");
      FieldsLastWins(ps, "res");
      FieldsLastWins(ps, "origin");
      FieldsLastWins(ps, "hz");
      FieldsLastWins(ps, "color_depth");
      FieldsLastWins(ps, "scaling");
      FieldsLastWins(ps, "degree");
    }
  }

  // ---------------------------------------------------------------------------
  // Round trip

  /** No field that reaches the descriptor holds `ch`. */
  predicate FreeOf(c: Config, ch: char)
  {
    && ch !in c.id
    && ch !in c.res
    && (c.origin.Some? ==> ch !in c.origin.value)
    && (c.hz.Some? ==> ch !in c.hz.value)
    && (c.degree.Some? ==> ch !in c.degree.value)
  }

  /** What a config rendered with scaling text `scaling` is read back as: every rendered field
      becomes the raw text it rendered as, and the color depth, which is not rendered,
      returns to its default. */
  function ReadBack(c: Config, scaling: string): Config
  {
    Config(c.id, c.res, Some(OriginText(c)), c.hz, None, Some(scaling), Some(DegreeText(c)))
  }

  /** What a config turns into after one `to_conf` and `parse`. */
  function Reparsed(c: Config): Config
  {
    ReadBack(c, ScalingText(c))
  }

  lemma TokenParts(key: string, value: string)
    requires ':' !in key
    ensures ':' in Token(key, value)
    ensures KeyOf(Token(key, value)) == key
    ensures ValueOf(Token(key, value)) == value
  {
    SplitOnceKey(key, ':', value);
  }

  /** Reading the tokens of pairs with colon-free keys gives the pairs back. */
  lemma PairsOfTokens(ps: seq<(string, string)>)
    requires forall i :: 0 <= i < |ps| ==> ':' !in ps[i].0
    ensures AllPaired(TokensOf(ps))
    ensures Pairs(TokensOf(ps)) == ps
  {
    var toks := TokensOf(ps);
    forall i | 0 <= i < |ps|
      ensures ':' in toks[i] && KeyOf(toks[i]) == ps[i].0 && ValueOf(toks[i]) == ps[i].1
    {
      TokenParts(ps[i].0, ps[i].1);
    }
  }

  /** A pair decides its key's value when no later pair carries the same key. */
  lemma {:induction false} LastOccurrenceWins(ps: seq<(string, string)>, i: nat)
    requires i < |ps|
    requires forall j :: i < j < |ps| ==> ps[j].0 != ps[i].0
    ensures LastValue(ps, ps[i].0) == Some(ps[i].1)
    decreases i
  {
    if i > 0 {
      LastOccurrenceWins(ps[1..], i - 1);
    } else {
      LastValueAbsent(ps[1..], ps[0].0);
    }
  }

  /** A key that no pair carries has no value. */
  lemma {:induction false} LastValueAbsent(ps: seq<(string, string)>, k: string)
    requires forall j :: 0 <= j < |ps| ==> ps[j].0 != k
    ensures LastValue(ps, k) == None
    decreases |ps|
  {
    if |ps| > 0 {
      LastValueAbsent(ps[1..], k);
    }
  }

  /** Splitting an encoded config on spaces and each token at its ':' gives back its pairs. */
  lemma EntriesOfRender(c: Config, scaling: string)
    requires FreeOf(c, ' ') && c.origin.Some? && ' ' !in scaling
    ensures AllPaired(Tokens(Render(c, scaling)))
    ensures Entries(Render(c, scaling)) == ConfPairs(c, scaling)
  {
    var ps := ConfPairs(c, scaling);
    var toks := ConfTokens(c, scaling);
    RenderTokens(c, scaling);
    assert forall i :: 0 <= i < |ps| ==> ' ' !in ps[i].0 && ' ' !in ps[i].1 && ':' !in ps[i].0;
    assert forall i :: 0 <= i < |toks| ==> ' ' !in toks[i];
    SplitJoin(toks, ' ');
    PairsOfTokens(ps);
  }

  /** The value each key takes in the pairs of a config. */
  lemma ConfPairsValues(c: Config, scaling: string)
    ensures AllAccepted(ConfPairs(c, scaling))
    ensures LastValue(ConfPairs(c, scaling), "id") == Some(c.id)
    ensures LastValue(ConfPairs(c, scaling), "res") == Some(c.res)
    ensures LastValue(ConfPairs(c, scaling), "degree") == Some(DegreeText(c))
    ensures LastValue(ConfPairs(c, scaling), "hz") == c.hz
    ensures LastValue(ConfPairs(c, scaling), "scaling") == Some(scaling)
    ensures LastValue(ConfPairs(c, scaling), "origin") == Some(OriginText(c))
    ensures LastValue(ConfPairs(c, scaling), "color_depth") == None
  {
    var ps := ConfPairs(c, scaling);
    var n := |ps|;
    LastOccurrenceWins(ps, 0);
    LastOccurrenceWins(ps, 1);
    LastOccurrenceWins(ps, 2);
    if c.hz.Some? {
      LastOccurrenceWins(ps, 3);
    } else {
      LastValueAbsent(ps, "hz");
    }
    LastOccurrenceWins(ps, n - 2);
    LastOccurrenceWins(ps, n - 1);
    LastValueAbsent(ps, "color_depth");
  }

  /** Decoding an encoded config, whose fields hold no space and whose origin was set, yields
      the same id, resolution, origin and refresh rate, the scaling as `on`/`off`, the degree
      as its rendered text, and the default color depth. */
  lemma ParseRender(c: Config, scaling: string)
    requires FreeOf(c, ' ') && c.origin.Some? && ' ' !in scaling
    ensures ParseConfig(Render(c, scaling)) == Success(ReadBack(c, scaling))
  {
    EntriesOfRender(c, scaling);
    ConfPairsValues(c, scaling);
    var r := ParseConfig(Render(c, scaling));
    ParseConfigOutcome(Render(c, scaling));
    assert r.Success?;
    assert r.value == ReadBack(c, scaling);
  }

  /** `parse` inverts `to_conf` up to the normalisation `Reparsed` describes. */
  lemma ParseToConf(c: Config)
    requires FreeOf(c, ' ') && c.origin.Some?
    ensures ParseConfig(ToConf(c)) == Success(Reparsed(c))
  {
    ParseRender(c, ScalingText(c));
  }

  /** The last token of a config whose origin is the default is `0)`. */
  lemma DefaultOriginLastToken(c: Config)
    requires c.origin.None?
    ensures ToConf(c) == Join(ConfTokens(c, ScalingText(c))[..|ConfTokens(c, ScalingText(c))| - 1], ' ')
                         + " origin:(0," + " " + "0)"
  {
    var toks := ConfTokens(c, ScalingText(c));
    var init := toks[..|toks| - 1];
    assert init + [toks[|toks| - 1]] == toks;
    RenderTokens(c, ScalingText(c));
    JoinSnoc(init, toks[|toks| - 1], ' ');
    assert toks[|toks| - 1] == "origin" + ":" + "(0, 0)";
    var j := Join(init, ' ');
    assert ToConf(c) == j + " origin:(0," + " " + "0)";
  }

  /** The default origin's space leaves a last token `0)` without ':'. */
  lemma DefaultOriginUnpaired(c: Config)
    requires c.origin.None?
    ensures !AllPaired(Tokens(ToConf(c)))
  {
    var toks := ConfTokens(c, ScalingText(c));
    var front := Join(toks[..|toks| - 1], ' ') + " origin:(0,";
    DefaultOriginLastToken(c);
    SplitAppend(front, "0)", ' ');
    SplitJoin(["0)"], ' ');
    assert Tokens(ToConf(c)) == Split(front, ' ') + ["0)"];
    assert "0)" in Tokens(ToConf(c));
  }

  /** The default origin prints as `(0, 0)`, whose space cuts the descriptor into a last
      token `0)` without ':', so a config whose origin was never set cannot be read back. */
  lemma DefaultOriginNeverReparses(c: Config)
    requires c.origin.None?
    ensures ParseConfig(ToConf(c)).Failure?
  {
    DefaultOriginUnpaired(c);
    ParseConfigOutcome(ToConf(c));
  }

  /** A raw scaling value "off" is a non-empty string, hence truthy: after one round trip
      it reads back as "on". */
  lemma ScalingOffReadsBackOn(c: Config)
    requires FreeOf(c, ' ') && c.origin.Some?
    requires c.scaling == Some("off")
    ensures ParseConfig(ToConf(c)).Success?
    ensures ParseConfig(ToConf(c)).value.scaling == Some("on")
  {
    ParseToConf(c);
  }

  /** Reading back changes nothing that the descriptor shows besides the scaling token. */
  lemma RenderReadBack(c: Config, was: string, scaling: string)
    ensures Render(ReadBack(c, was), scaling) == Render(c, scaling)
  {
    var d := ReadBack(c, was);
    assert DegreeText(d) == DegreeText(c);
    assert OriginText(d) == OriginText(c);
  }

  /** As written, a display whose scaling is off does not survive a round trip: the decoded
      raw "off" is truthy, so the next `to_conf` prints `scaling:on` and the descriptor
      differs from the one that was read. */
  lemma ScalingOffTurnsOn(c: Config)
    requires FreeOf(c, ' ') && c.origin.Some?
    requires !ScalingOn(c)
    ensures ParseConfig(ToConf(c)).Success?
    ensures ToConf(ParseConfig(ToConf(c)).value) != ToConf(c)
  {
    ParseToConf(c);
    assert ToConf(c) == Render(c, "off");
    assert ToConf(Reparsed(c)) == Render(Reparsed(c), "on");
    RenderReadBack(c, "off", "on");
    RenderDiffers(c);
  }

  /** The scaling token is visible in the descriptor: `off` is one character longer. */
  lemma RenderDiffers(c: Config)
    ensures |Render(c, "off")| == |Render(c, "on")| + 1
    ensures Render(c, "on") != Render(c, "off")
  {
  }

  /** The scaling text the record's `bool` type intends: on exactly when the display tool
      reported `on`. */
  function IntendedScalingText(c: Config): string
  {
    if c.scaling == Some("on") then "on" else "off"
  }

  /** `to_conf` with the scaling rendered as intended. */
  function ToConfIntended(c: Config): string
  {
    Render(c, IntendedScalingText(c))
  }

  /** With the intended scaling rendering, the scaling state survives a round trip and a
      decoded descriptor prints exactly as it was read. */
  lemma IntendedRoundTrip(c: Config)
    requires FreeOf(c, ' ') && c.origin.Some?
    ensures ParseConfig(ToConfIntended(c)).Success?
    ensures ParseConfig(ToConfIntended(c)).value.scaling == Some(IntendedScalingText(c))
    ensures ToConfIntended(ParseConfig(ToConfIntended(c)).value) == ToConfIntended(c)
  {
    var t := IntendedScalingText(c);
    ParseRender(c, t);
    var d := ReadBack(c, t);
    assert IntendedScalingText(d) == t;
    calc {
      ToConfIntended(d);
      Render(d, t);
      { RenderReadBack(c, t, t); }
      Render(c, t);
    }
  }
}

=== FILE: footprint.dfy ===
/** `Layout.footprint`: what identifies an arrangement, the `(id, origin)` pair of every
    display, ordered by a key computed from the id.

    dp.py orders by Python's `hash` of the id, which is deterministic within one run
    of the program; it is a parameter `hash` here. */
module Footprints {
  import opened Wrappers
  import opened StableSort
  import opened ConfigCodec
  import opened LayoutCodec

  /** Where one display sits: its id and its origin (`None` for the default). */
  type Placement = (string, Option<string>)

  function PlacementOf(c: Config): Placement
  {
    (c.id, c.origin)
  }

  /** The placements of the displays, in order. */
  function Placements(cs: seq<Config>): seq<Placement>
  {
    Map(cs, PlacementOf)
  }

  /** The sort key of a display. */
  function IdKey(hash: string -> int): Config -> int
  {
    (c: Config) => hash(c.id)
  }

  /** The same key, read off a placement. */
  function PlacementKey(hash: string -> int): Placement -> int
  {
    (p: Placement) => hash(p.0)
  }

  /** `Layout.footprint`: sort the displays stably by the key of their id, then keep the
      id and origin of each. */
  function Footprint(l: Layout, hash: string -> int): seq<Placement>
  {
    Placements(SortBy(l.configs, IdKey(hash)))
  }

  /** Sorting the displays and then keeping their placements is sorting the placements. */
  lemma FootprintSortsPlacements(l: Layout, hash: string -> int)
    ensures Footprint(l, hash) == SortBy(Placements(l.configs), PlacementKey(hash))
  {
    SortByMap(l.configs, PlacementOf, IdKey(hash), PlacementKey(hash));
  }

  /** The footprint holds every display's `(id, origin)` pair once, ordered by key, with
      displays of equal key in layout order. */
  lemma FootprintIsSortedPlacements(l: Layout, hash: string -> int)
    ensures |Footprint(l, hash)| == |l.configs|
    ensures multiset(Footprint(l, hash)) == multiset(Placements(l.configs))
    ensures Sorted(Footprint(l, hash), PlacementKey(hash))
    ensures forall k :: Keyed(Footprint(l, hash), PlacementKey(hash), k)
                        == Keyed(Placements(l.configs), PlacementKey(hash), k)
  {
    var ps := Placements(l.configs);
    FootprintSortsPlacements(l, hash);
    SortBySorts(ps, PlacementKey(hash));
    forall k ensures Keyed(Footprint(l, hash), PlacementKey(hash), k) == Keyed(ps, PlacementKey(hash), k) {
      SortByStable(ps, PlacementKey(hash), k);
    }
  }

  /** Only ids and origins matter: layouts that agree on them, display by display, have the
      same footprint whatever their resolutions, degrees, rates or scaling. */
  lemma FootprintIgnoresDetails(a: Layout, b: Layout, hash: string -> int)
    requires Placements(a.configs) == Placements(b.configs)
    ensures Footprint(a, hash) == Footprint(b, hash)
  {
    FootprintSortsPlacements(a, hash);
    FootprintSortsPlacements(b, hash);
  }

  /** Every id has its own key: the ids are unique and the hash tells them apart. */
  predicate KeysDistinct(cs: seq<Config>, hash: string -> int)
  {
    forall i, j :: 0 <= i < j < |cs| ==> hash(cs[i].id) != hash(cs[j].id)
  }

  /** With one key per display, the footprint does not depend on the order in which the
      displays were listed. */
  lemma FootprintPermutationInvariant(a: Layout, b: Layout, hash: string -> int)
    requires multiset(a.configs) == multiset(b.configs)
    requires KeysDistinct(a.configs, hash)
    ensures Footprint(a, hash) == Footprint(b, hash)
  {
    assert DistinctKeys(a.configs, IdKey(hash));
    SortByPermutation(a.configs, b.configs, IdKey(hash));
  }

  /** With one key per display, two layouts have the same footprint exactly when they have
      the same `(id, origin)` pairs, in any order. */
  lemma FootprintEqualIff(a: Layout, b: Layout, hash: string -> int)
    requires KeysDistinct(a.configs, hash)
    ensures Footprint(a, hash) == Footprint(b, hash)
            <==> multiset(Placements(a.configs)) == multiset(Placements(b.configs))
  {
    FootprintIsSortedPlacements(a, hash);
    FootprintIsSortedPlacements(b, hash);
    FootprintSortsPlacements(a, hash);
    FootprintSortsPlacements(b, hash);
    if multiset(Placements(a.configs)) == multiset(Placements(b.configs)) {
      var pa := Placements(a.configs);
      assert DistinctKeys(pa, PlacementKey(hash));
      SortByPermutation(pa, Placements(b.configs), PlacementKey(hash));
    }
  }

  /** Moving one display changes the footprint, whatever the ids and their keys. */
  lemma FootprintSeesOrigin(l: Layout, i: nat, origin: Option<string>, hash: string -> int)
    requires i < |l.configs| && origin != l.configs[i].origin
    ensures Footprint(Layout(l.configs[i := l.configs[i].(origin := origin)]), hash) != Footprint(l, hash)
  {
    var moved := Layout(l.configs[i := l.configs[i].(origin := origin)]);
    var ps := Placements(l.configs);
    FootprintIsSortedPlacements(l, hash);
    FootprintIsSortedPlacements(moved, hash);
    assert Placements(moved.configs) == ps[i := PlacementOf(moved.configs[i])];
    UpdateChangesMultiset(ps, i, PlacementOf(moved.configs[i]));
  }

  /** Replacing an element by a different one changes the multiset. */
  lemma UpdateChangesMultiset<T>(s: seq<T>, i: nat, q: T)
    requires i < |s| && q != s[i]
    ensures multiset(s[i := q]) != multiset(s)
  {
    var p := s[i];
    assert s == s[..i] + [p] + s[i + 1..];
    assert s[i := q] == s[..i] + [q] + s[i + 1..];
    assert multiset(s[i := q])[p] == multiset(s[..i])[p] + multiset(s[i + 1..])[p];
    assert multiset(s)[p] == multiset(s[..i])[p] + 1 + multiset(s[i + 1..])[p];
  }

  /** A layout read back from its own command has the same footprint. */
  lemma FootprintSurvivesCommand(l: Layout, hash: string -> int)
    requires forall i :: 0 <= i < |l.configs| ==> Clean(l.configs[i])
    ensures ParseLayout(ToCommand(l)).Success?
    ensures Footprint(ParseLayout(ToCommand(l)).value, hash) == Footprint(l, hash)
  {
    CommandRoundTrip(l);
    var back := ReparsedAll(l.configs);
    assert Placements(back) == Placements(l.configs);
    FootprintIgnoresDetails(Layout(back), l, hash);
  }
}

=== FILE: launcher.dfy ===
/** The launcher's item list: a fixed "Auto Switch" entry followed by one entry per stored
    template line. dp.py and filter.py each build it; they differ only in the first
    entry's completion. */
module Launcher {
  import opened Wrappers
  import opened Text

  /** What typing-ahead completes to: a word, or the number of a template. */
  datatype Completion = Keyword(word: string) | Position(n: nat)

  /** One entry: the title shown, the subtitle under it, the argument handed back when it
      is picked, and the completion, if the entry has one. */
  datatype Item = Item(title: string, subtitle: string, arg: string, autocomplete: Option<Completion>)

  /** The argument that asks for an automatic switch. */
  const AutoArg: string := "!"

  /** The fixed first entry; dp.py completes it to the word `auto`, filter.py gives it no
      completion. */
  function AutoItem(autocomplete: Option<Completion>): Item
  {
    Item("Auto Switch", "Auto switch based on the current config", AutoArg, autocomplete)
  }

  /** The title of the entry for template `i`. */
  function ConfigTitle(i: nat): string
  {
    "Config " + NatText(i)
  }

  /** The entries for the templates, numbered from `start`. */
  function ConfigItems(raws: seq<string>, start: nat): (items: seq<Item>)
    ensures |items| == |raws|
    ensures forall i :: 0 <= i < |raws| ==>
      && items[i].title == ConfigTitle(start + i)
      && items[i].subtitle == raws[i]
      && items[i].arg == raws[i]
      && items[i].autocomplete == Some(Position(start + i))
  {
    seq(|raws|, i requires 0 <= i < |raws| => Item(ConfigTitle(start + i), raws[i], raws[i], Some(Position(start + i))))
  }

  /** `Alfred._to_alfred_list` (dp.py): the auto entry, completing to `auto`, then the
      templates in order, each numbered by its position. */
  function AlfredItems(raws: seq<string>): (items: seq<Item>)
    ensures |items| == |raws| + 1
    ensures items[0] == AutoItem(Some(Keyword("auto")))
    ensures forall i :: 1 <= i < |items| ==>
      && items[i].title == ConfigTitle(i - 1)
      && items[i].subtitle == raws[i - 1]
      && items[i].arg == raws[i - 1]
      && items[i].autocomplete == Some(Position(i - 1))
  {
    [AutoItem(Some(Keyword("auto")))] + ConfigItems(raws, 0)
  }

  /** `to_alfred_list` (filter.py): the auto entry without a completion, then the templates
      in order, each numbered by its position. */
  function FilterItems(configs: seq<string>): (items: seq<Item>)
    ensures |items| == |configs| + 1
    ensures items[0] == AutoItem(None)
    ensures forall i :: 1 <= i < |items| ==>
      && items[i].title == ConfigTitle(i - 1)
      && items[i].subtitle == configs[i - 1]
      && items[i].arg == configs[i - 1]
      && items[i].autocomplete == Some(Position(i - 1))
  {
    [AutoItem(None)] + ConfigItems(configs, 0)
  }

  /** Each entry's title reads back as its position: the number after `Config ` is the
      index of the template line. */
  lemma TitleNamesPosition(raws: seq<string>, i: nat)
    requires i < |raws|
    ensures var t := AlfredItems(raws)[i + 1].title;
      |t| > 7 && t[..7] == "Config "
      && (forall j :: 7 <= j < |t| ==> '0' <= t[j] <= '9')
      && DigitsValue(t[7..]) == i
  {
    var t := AlfredItems(raws)[i + 1].title;
    assert t[7..] == NatText(i);
    NatTextValue(i);
  }

  /** Different positions have different titles. */
  lemma ConfigTitleInjective(a: nat, b: nat)
    requires ConfigTitle(a) == ConfigTitle(b)
    ensures a == b
  {
    assert ConfigTitle(a)[7..] == NatText(a);
    assert ConfigTitle(b)[7..] == NatText(b);
    NatTextInjective(a, b);
  }

  /** No two entries share a title, so each can be told apart on screen. */
  lemma TitlesDistinct(raws: seq<string>)
    ensures forall i, j :: 0 <= i < j < |AlfredItems(raws)| ==> AlfredItems(raws)[i].title != AlfredItems(raws)[j].title
  {
    var items := AlfredItems(raws);
    forall i, j | 0 <= i < j < |items| ensures items[i].title != items[j].title {
      var tj := items[j].title;
      assert tj == ConfigTitle(j - 1);
      if i == 0 {
        assert items[i].title[0] == 'A' && tj[0] == 'C';
      } else if items[i].title == tj {
        ConfigTitleInjective(i - 1, j - 1);
      }
    }
  }

  /** One more stored line adds one entry at the end and leaves the others as they were. */
  lemma AlfredItemsSnoc(raws: seq<string>, line: string)
    ensures AlfredItems(raws + [line]) == AlfredItems(raws) + [Item(ConfigTitle(|raws|), line, line, Some(Position(|raws|)))]
  {
    var longer := raws + [line];
    var a := AlfredItems(longer);
    var b := AlfredItems(raws) + [Item(ConfigTitle(|raws|), line, line, Some(Position(|raws|)))];
    forall i | 1 <= i < |a| ensures a[i] == b[i] {
      if i <= |raws| {
        assert longer[i - 1] == raws[i - 1];
      }
    }
  }

  /** The two programs list the same entries; only the first entry's completion differs. */
  lemma ListsAgree(raws: seq<string>)
    ensures FilterItems(raws) == AlfredItems(raws)[0 := AlfredItems(raws)[0].(autocomplete := None)]
    ensures AlfredItems(raws)[0].autocomplete != FilterItems(raws)[0].autocomplete
  {
    var a, f := AlfredItems(raws), FilterItems(raws);
    assert |f| == |a[0 := a[0].(autocomplete := None)]|;
    forall i | 0 <= i < |f| ensures f[i] == a[0 := a[0].(autocomplete := None)][i] {
      if i > 0 {
        assert f[i] == a[i];
      }
    }
  }
}

=== FILE: layout_codec.dfy ===
/** A layout, the list of all displays' configs, read from the display tool's free-form
    output and written as the one command line that applies it. */
module LayoutCodec {
  import opened Wrappers
  import opened Text
  import opened ConfigCodec

  /** All displays of one desktop arrangement, in the order they were read. */
  datatype Layout = Layout(configs: seq<Config>)

  /** The display tool's name; only lines starting with it carry descriptors. */
  const Command: string := "displayplacer"

  /** The descriptors the pattern `"([^"]+)"` finds in `s`, left to right: a match starts
      at a quote followed by at least one non-quote character and a closing quote; after a
      match the search resumes past the closing quote, after a failed start one character
      further on. */
  function Quoted(s: string): (runs: seq<string>)
    ensures forall i :: 0 <= i < |runs| ==> runs[i] != [] && '"' !in runs[i]
    decreases |s|
  {
    if |s| == 0 then []
    else if s[0] != '"' then Quoted(s[1..])
    else
      var k := IndexOf(s[1..], '"');
      if k == 0 || k == |s| - 1 then Quoted(s[1..])
      else
        assert forall i :: 0 <= i < k ==> s[1..k + 1][i] == s[1..][i];
        [s[1..k + 1]] + Quoted(s[k + 2..])
  }

  /** Text without quotes before a descriptor adds nothing. */
  lemma {:induction false} QuotedSkip(p: string, s: string)
    requires '"' !in p
    ensures Quoted(p + s) == Quoted(s)
    decreases |p|
  {
    if |p| > 0 {
      assert (p + s)[0] == p[0];
      assert (p + s)[1..] == p[1..] + s;
      QuotedSkip(p[1..], s);
    } else {
      assert p + s == s;
    }
  }

  /** A quoted non-empty run without inner quotes is extracted whole. */
  lemma QuotedRun(x: string, s: string)
    requires x != [] && '"' !in x
    ensures Quoted("\"" + x + "\"" + s) == [x] + Quoted(s)
  {
    var t := "\"" + x + "\"" + s;
    assert t[1..] == x + "\"" + s;
    IndexOfSeparator(x, '"', s);
    assert t[1..|x| + 1] == x;
    assert t[|x| + 2..] == s;
  }

  /** A descriptor between double quotes. */
  function Wrap(d: string): string
  {
    "\"" + d + "\""
  }

  function WrapAll(ds: seq<string>): (ws: seq<string>)
    ensures |ws| == |ds|
    ensures forall i :: 0 <= i < |ds| ==> ws[i] == Wrap(ds[i])
  {
    if |ds| == 0 then [] else [Wrap(ds[0])] + WrapAll(ds[1..])
  }

  /** Quoted descriptors joined by spaces are found again, in order. */
  lemma {:induction false} QuotedJoin(ds: seq<string>)
    requires forall i :: 0 <= i < |ds| ==> ds[i] != [] && '"' !in ds[i]
    ensures Quoted(Join(WrapAll(ds), ' ')) == ds
    decreases |ds|
  {
    if |ds| == 0 {
    } else if |ds| == 1 {
      QuotedRun(ds[0], "");
      assert Wrap(ds[0]) + "" == Wrap(ds[0]);
    } else {
      var rest := Join(WrapAll(ds[1..]), ' ');
      assert WrapAll(ds)[1..] == WrapAll(ds[1..]);
      assert Join(WrapAll(ds), ' ') == Wrap(ds[0]) + " " + rest;
      QuotedRun(ds[0], " " + rest);
      Assoc(Wrap(ds[0]), " ", rest);
      QuotedSkip(" ", rest);
      QuotedJoin(ds[1..]);
    }
  }

  /** The descriptors of every line that starts with the tool's name, line by line. */
  function Descriptors(lines: seq<string>): (ds: seq<string>)
    ensures forall i :: 0 <= i < |ds| ==> ds[i] != [] && '"' !in ds[i]
  {
    if |lines| == 0 then []
    else (if StartsWith(lines[0], Command) then Quoted(lines[0]) else []) + Descriptors(lines[1..])
  }

  /** Descriptors are gathered line by line, in line order. */
  lemma {:induction false} DescriptorsAppend(a: seq<string>, b: seq<string>)
    ensures Descriptors(a + b) == Descriptors(a) + Descriptors(b)
    decreases |a|
  {
    if |a| > 0 {
      assert (a + b)[0] == a[0];
      assert (a + b)[1..] == a[1..] + b;
      DescriptorsAppend(a[1..], b);
    } else {
      assert a + b == b;
    }
  }

  /** The values of a list of outcomes when all succeeded, else the first error. */
  function Collect<T, E>(rs: seq<Result<T, E>>): (r: Result<seq<T>, E>)
    ensures r.Success? <==> forall i :: 0 <= i < |rs| ==> rs[i].Success?
    ensures r.Success? ==> |r.value| == |rs| && forall i :: 0 <= i < |rs| ==> rs[i] == Success(r.value[i])
    ensures r.Failure? ==>
      exists i :: 0 <= i < |rs| && rs[i] == Failure(r.error) && forall j :: 0 <= j < i ==> rs[j].Success?
  {
    if |rs| == 0 then Success([])
    else
      assert forall j :: 1 <= j < |rs| ==> rs[j] == rs[1..][j - 1];
      match rs[0]
      case Failure(e) => Failure(e)
      case Success(v) =>
        match Collect(rs[1..])
        case Failure(e) => Failure(e)
        case Success(vs) => Success([v] + vs)
  }

  /** The outcome of parsing each descriptor. */
  function ParseEach(ds: seq<string>): (rs: seq<Result<Config, ParseError>>)
    ensures |rs| == |ds|
    ensures forall i :: 0 <= i < |ds| ==> rs[i] == ParseConfig(ds[i])
  {
    seq(|ds|, i requires 0 <= i < |ds| => ParseConfig(ds[i]))
  }

  /** `Layout.parse`: split the text into lines, take the quoted descriptors of the lines
      starting with the tool's name, and parse each; the first bad descriptor fails it all. */
  function ParseLayout(text: string): (r: Result<Layout, ParseError>)
    ensures var rs := ParseEach(Descriptors(Split(text, '\n')));
      && (r.Success? <==> forall i :: 0 <= i < |rs| ==> rs[i].Success?)
      && (r.Success? ==> |r.value.configs| == |rs| && forall i :: 0 <= i < |rs| ==> rs[i] == Success(r.value.configs[i]))
      && (r.Failure? ==> exists i :: 0 <= i < |rs| && rs[i] == Failure(r.error) && forall j :: 0 <= j < i ==> rs[j].Success?)
  {
    match Collect(ParseEach(Descriptors(Split(text, '\n'))))
    case Success(cs) => Success(Layout(cs))
    case Failure(e) => Failure(e)
  }

  /** `Layout.to_command`: the tool's name, a space, then each display's descriptor in
      double quotes, separated by single spaces. */
  function ToCommand(l: Layout): string
  {
    CommandLine(Encodings(l.configs))
  }

  /** The tool's name, a space, then the descriptors in double quotes, separated by single
      spaces. */
  function CommandLine(ds: seq<string>): string
  {
    Command + " " + Join(WrapAll(ds), ' ')
  }

  /** The descriptors of the configs, in order. */
  function Encodings(cs: seq<Config>): (ds: seq<string>)
    ensures |ds| == |cs|
    ensures forall i :: 0 <= i < |cs| ==> ds[i] == ToConf(cs[i])
  {
    if |cs| == 0 then [] else [ToConf(cs[0])] + Encodings(cs[1..])
  }

  // ---------------------------------------------------------------------------
  // Properties

  /** Splitting around a line without line breaks isolates it. */
  lemma SplitAroundLine(before: string, line: string, after: string)
    requires '\n' !in line
    ensures Split(before + "\n" + line + "\n" + after, '\n')
            == Split(before, '\n') + [line] + Split(after, '\n')
  {
    var rest := line + ['\n'] + after;
    SplitLeadingLine(line, after);
    SplitAppend(before, rest, '\n');
    Assoc(before + "\n", line + "\n", after);
    Assoc(before + "\n", line, "\n");
  }

  /** A first line without line breaks is the first piece. */
  lemma {:induction false} SplitLeadingLine(line: string, after: string)
    requires '\n' !in line
    ensures Split(line + ['\n'] + after, '\n') == [line] + Split(after, '\n')
  {
    SplitAppend(line, after, '\n');
    assert Join([line], '\n') == line;
    SplitJoin([line], '\n');
  }

  /** A line that does not start with the tool's name contributes no descriptor. */
  lemma NoiseLineDropped(before: string, noise: string, after: string)
    requires '\n' !in noise && !StartsWith(noise, Command)
    ensures Descriptors(Split(before + "\n" + noise + "\n" + after, '\n'))
         == Descriptors(Split(before + "\n" + after, '\n'))
  {
    var a, b := Split(before, '\n'), Split(after, '\n');
    SplitAroundLine(before, noise, after);
    SplitAppend(before, after, '\n');
    DescriptorsAppend(a + [noise], b);
    DescriptorsAppend(a, [noise]);
    assert Descriptors([noise]) == [] + Descriptors([]);
    DescriptorsAppend(a, b);
  }

  /** A first line that does not start with the tool's name contributes no descriptor;
      this is where the tool's own header lines sit. */
  lemma LeadingNoiseLineDropped(noise: string, after: string)
    requires '\n' !in noise && !StartsWith(noise, Command)
    ensures Descriptors(Split(noise + "\n" + after, '\n')) == Descriptors(Split(after, '\n'))
  {
    SplitLeadingLine(noise, after);
    DescriptorsAppend([noise], Split(after, '\n'));
    assert Descriptors([noise]) == [] + Descriptors([]);
  }

  /** A last line that does not start with the tool's name contributes no descriptor. */
  lemma TrailingNoiseLineDropped(before: string, noise: string)
    requires '\n' !in noise && !StartsWith(noise, Command)
    ensures Descriptors(Split(before + "\n" + noise, '\n')) == Descriptors(Split(before, '\n'))
  {
    SplitAppend(before, noise, '\n');
    assert Join([noise], '\n') == noise;
    SplitJoin([noise], '\n');
    DescriptorsAppend(Split(before, '\n'), [noise]);
    assert Descriptors([noise]) == [] + Descriptors([]);
  }

  /** A line that does not start with the tool's name changes nothing, wherever it sits
      in the text: between two lines, as the first line, as the last line, or alone. */
  lemma NoiseLineIgnored(before: string, noise: string, after: string)
    requires '\n' !in noise && !StartsWith(noise, Command)
    ensures ParseLayout(before + "\n" + noise + "\n" + after) == ParseLayout(before + "\n" + after)
    ensures ParseLayout(noise + "\n" + after) == ParseLayout(after)
    ensures ParseLayout(before + "\n" + noise) == ParseLayout(before)
    ensures ParseLayout(noise) == Success(Layout([]))
  {
    NoiseLineDropped(before, noise, after);
    SameDescriptorsSameLayout(before + "\n" + noise + "\n" + after, before + "\n" + after);
    LeadingNoiseLineDropped(noise, after);
    SameDescriptorsSameLayout(noise + "\n" + after, after);
    TrailingNoiseLineDropped(before, noise);
    SameDescriptorsSameLayout(before + "\n" + noise, before);
    LoneNoiseLine(noise);
  }

  /** A text that is a single line not starting with the tool's name is the empty layout. */
  lemma LoneNoiseLine(noise: string)
    requires '\n' !in noise && !StartsWith(noise, Command)
    ensures ParseLayout(noise) == Success(Layout([]))
  {
    assert Join([noise], '\n') == noise;
    SplitJoin([noise], '\n');
    assert Descriptors([noise]) == [] + Descriptors([]);
  }

  /** Texts whose lines give the same descriptors parse alike. */
  lemma SameDescriptorsSameLayout(t: string, u: string)
    requires Descriptors(Split(t, '\n')) == Descriptors(Split(u, '\n'))
    ensures ParseLayout(t) == ParseLayout(u)
  {
  }

  /** Text none of whose lines starts with the tool's name yields the empty layout. */
  lemma {:induction false} NoCommandLineGivesEmptyLayout(lines: seq<string>)
    requires forall i :: 0 <= i < |lines| ==> !StartsWith(lines[i], Command)
    ensures Descriptors(lines) == []
    decreases |lines|
  {
    if |lines| > 0 {
      NoCommandLineGivesEmptyLayout(lines[1..]);
    }
  }

  /** A layout whose fields hold no space, quote or line break, and whose origins were all
      set, is read back from its own command: one config per display, in order, each the
      decoded form of the config it came from. */
  predicate Clean(c: Config)
  {
    FreeOf(c, ' ') && FreeOf(c, '"') && FreeOf(c, '\n') && c.origin.Some?
  }

  function ReparsedAll(cs: seq<Config>): (rs: seq<Config>)
    ensures |rs| == |cs|
    ensures forall i :: 0 <= i < |cs| ==> rs[i] == Reparsed(cs[i])
  {
    if |cs| == 0 then [] else [Reparsed(cs[0])] + ReparsedAll(cs[1..])
  }

  /** No token of a config holds a quote or a line break unless a field does. */
  lemma TokensFreeOf(c: Config, ch: char)
    requires ch == '"' || ch == '\n'
    requires FreeOf(c, ch)
    ensures forall i :: 0 <= i < |ConfTokens(c, ScalingText(c))| ==> ch !in ConfTokens(c, ScalingText(c))[i]
  {
    var ps := ConfPairs(c, ScalingText(c));
    assert forall i :: 0 <= i < |ps| ==> ch !in ps[i].0 && ch !in ps[i].1;
  }

  /** A descriptor holds a quote or a line break only if a field does. */
  lemma ToConfFreeOf(c: Config, ch: char)
    requires ch == '"' || ch == '\n'
    requires FreeOf(c, ch)
    ensures ch !in ToConf(c)
    ensures ToConf(c) != []
  {
    RenderTokens(c, ScalingText(c));
    TokensFreeOf(c, ch);
    JoinFree(ConfTokens(c, ScalingText(c)), ' ', ch);
    assert ToConf(c)[0] == 'i';
  }

  /** A join holds a character other than the separator only if a piece does. */
  lemma {:induction false} JoinFree(parts: seq<string>, sep: char, ch: char)
    requires ch != sep
    requires forall i :: 0 <= i < |parts| ==> ch !in parts[i]
    ensures ch !in Join(parts, sep)
    decreases |parts|
  {
    if |parts| > 1 {
      JoinFree(parts[1..], sep, ch);
    }
  }

  /** Every descriptor of a clean layout is non-empty and holds no quote or line break. */
  lemma EncodingsFree(cs: seq<Config>)
    requires forall i :: 0 <= i < |cs| ==> Clean(cs[i])
    ensures forall i :: 0 <= i < |cs| ==>
      Encodings(cs)[i] != [] && '"' !in Encodings(cs)[i] && '\n' !in Encodings(cs)[i]
  {
    forall i | 0 <= i < |cs|
      ensures Encodings(cs)[i] != [] && '"' !in Encodings(cs)[i] && '\n' !in Encodings(cs)[i]
    {
      ToConfFreeOf(cs[i], '"');
      ToConfFreeOf(cs[i], '\n');
    }
  }

  /** A command line whose descriptors hold no line break is one line. */
  lemma CommandLineOneLine(ds: seq<string>)
    requires forall i :: 0 <= i < |ds| ==> '\n' !in ds[i]
    ensures Split(CommandLine(ds), '\n') == [CommandLine(ds)]
  {
    var ws := WrapAll(ds);
    assert forall i :: 0 <= i < |ws| ==> '\n' !in ws[i];
    JoinFree(ws, ' ', '\n');
    SplitWhole(CommandLine(ds), '\n');
  }

  /** A command line starts with the tool's name and quotes its descriptors, which are
      found again when they are non-empty and hold no quote. */
  lemma CommandLineShape(ds: seq<string>)
    requires forall i :: 0 <= i < |ds| ==> ds[i] != [] && '"' !in ds[i]
    ensures StartsWith(CommandLine(ds), Command)
    ensures Quoted(CommandLine(ds)) == ds
  {
    var body := Join(WrapAll(ds), ' ');
    assert CommandLine(ds) == (Command + " ") + body;
    assert CommandLine(ds)[..|Command|] == Command;
    QuotedSkip(Command + " ", body);
    QuotedJoin(ds);
  }

  /** The descriptors `Layout.parse` finds in a command line are the ones it was built
      from. */
  lemma CommandLineDescriptors(ds: seq<string>)
    requires forall i :: 0 <= i < |ds| ==> ds[i] != [] && '"' !in ds[i] && '\n' !in ds[i]
    ensures Descriptors(Split(CommandLine(ds), '\n')) == ds
  {
    CommandLineOneLine(ds);
    CommandLineShape(ds);
    assert Descriptors([CommandLine(ds)]) == Quoted(CommandLine(ds)) + Descriptors([]);
  }

  /** Text whose descriptors all parse yields the layout of their configs. */
  lemma ParseLayoutOf(text: string, cs: seq<Config>)
    requires |Descriptors(Split(text, '\n'))| == |cs|
    requires forall i :: 0 <= i < |cs| ==> ParseConfig(Descriptors(Split(text, '\n'))[i]) == Success(cs[i])
    ensures ParseLayout(text) == Success(Layout(cs))
  {
    var r := ParseLayout(text);
    assert r.Success?;
    assert r.value.configs == cs;
  }

  /** Every encoded config of a clean layout parses to its decoded form. */
  lemma EncodingsParse(cs: seq<Config>)
    requires forall i :: 0 <= i < |cs| ==> Clean(cs[i])
    ensures forall i :: 0 <= i < |cs| ==> ParseConfig(Encodings(cs)[i]) == Success(ReparsedAll(cs)[i])
  {
    forall i | 0 <= i < |cs|
      ensures ParseConfig(Encodings(cs)[i]) == Success(ReparsedAll(cs)[i])
    {
      ParseToConf(cs[i]);
    }
  }

  /** `Layout.parse` reads `to_command` back: same number of configs, same order, each the
      decoded form of the config it came from (same id, resolution, origin and refresh rate). */
  lemma CommandRoundTrip(l: Layout)
    requires forall i :: 0 <= i < |l.configs| ==> Clean(l.configs[i])
    ensures ParseLayout(ToCommand(l)) == Success(Layout(ReparsedAll(l.configs)))
  {
    var ds := Encodings(l.configs);
    EncodingsFree(l.configs);
    CommandLineDescriptors(ds);
    EncodingsParse(l.configs);
    ParseLayoutOf(ToCommand(l), ReparsedAll(l.configs));
  }

  /** A trailing line break adds an empty last line, which holds no descriptor. */
  lemma TrailingBreakDropped(text: string)
    ensures Descriptors(Split(text + "\n", '\n')) == Descriptors(Split(text, '\n'))
  {
    SplitAppend(text, "", '\n');
    assert text + ['\n'] + "" == text + "\n";
    SplitWhole("", '\n');
    DescriptorsAppend(Split(text, '\n'), [""]);
    assert Descriptors([""]) == [] + Descriptors([]);
  }

  /** A line as `Template.save` writes it, the command and a line break, parses like the
      command alone. */
  lemma SavedLineParses(l: Layout)
    requires forall i :: 0 <= i < |l.configs| ==> Clean(l.configs[i])
    ensures ParseLayout(ToCommand(l) + "\n") == Success(Layout(ReparsedAll(l.configs)))
  {
    CommandRoundTrip(l);
    TrailingBreakDropped(ToCommand(l));
  }
}

=== FILE: sorting.dfy ===
/** A stable sort by an integer key, as Python's `sorted(xs, key=...)` performs it: the
    result is ordered by key, and elements with equal keys keep their input order. */
module StableSort {

  /** Keys never decrease from left to right. */
  predicate Sorted<T>(xs: seq<T>, key: T -> int)
  {
    forall i, j :: 0 <= i < j < |xs| ==> key(xs[i]) <= key(xs[j])
  }

  /** No two positions share a key. */
  predicate DistinctKeys<T>(xs: seq<T>, key: T -> int)
  {
    forall i, j :: 0 <= i < j < |xs| ==> key(xs[i]) != key(xs[j])
  }

  /** The elements whose key is `k`, in order. */
  function Keyed<T>(xs: seq<T>, key: T -> int, k: int): seq<T>
  {
    if |xs| == 0 then []
    else if key(xs[0]) == k then [xs[0]] + Keyed(xs[1..], key, k)
    else Keyed(xs[1..], key, k)
  }

  /** `x` placed before the first element whose key is not smaller than its own. */
  function Insert<T>(x: T, xs: seq<T>, key: T -> int): (r: seq<T>)
    ensures |r| == |xs| + 1
  {
    if |xs| == 0 then [x]
    else if key(x) <= key(xs[0]) then [x] + xs
    else [xs[0]] + Insert(x, xs[1..], key)
  }

  /** Insertion adds exactly the one element. */
  lemma {:induction false} InsertPermutes<T>(x: T, xs: seq<T>, key: T -> int)
    ensures multiset(Insert(x, xs, key)) == multiset(xs) + multiset{x}
    decreases |xs|
  {
    if |xs| > 0 && key(x) > key(xs[0]) {
      InsertPermutes(x, xs[1..], key);
      assert xs == [xs[0]] + xs[1..];
    }
  }

  /** An element with a larger key goes past the first element. */
  lemma InsertPast<T>(x: T, xs: seq<T>, key: T -> int)
    requires |xs| > 0 && key(x) > key(xs[0])
    ensures Insert(x, xs, key) == [xs[0]] + Insert(x, xs[1..], key)
  {
  }

  /** An element of an insertion is the inserted one or was there before. */
  lemma InsertMembers<T>(x: T, xs: seq<T>, key: T -> int, y: T)
    requires y in Insert(x, xs, key)
    ensures y == x || y in xs
  {
    InsertPermutes(x, xs, key);
    assert y in multiset(Insert(x, xs, key));
  }

  /** A sorted sequence stays sorted behind an element whose key is no larger than any
      of its keys. */
  lemma SortedCons<T>(y: T, ys: seq<T>, key: T -> int)
    requires Sorted(ys, key)
    requires forall z :: z in ys ==> key(y) <= key(z)
    ensures Sorted([y] + ys, key)
  {
    var r := [y] + ys;
    forall i, j | 0 <= i < j < |r| ensures key(r[i]) <= key(r[j]) {
      assert r[j] == ys[j - 1];
      if i > 0 {
        assert r[i] == ys[i - 1];
      }
    }
  }

  /** Insertion into a sorted sequence keeps it sorted. */
  lemma {:induction false} InsertSorted<T>(x: T, xs: seq<T>, key: T -> int)
    requires Sorted(xs, key)
    ensures Sorted(Insert(x, xs, key), key)
    decreases |xs|
  {
    if |xs| == 0 {
    } else if key(x) <= key(xs[0]) {
      SortedCons(x, xs, key);
    } else {
      var rest := Insert(x, xs[1..], key);
      InsertPast(x, xs, key);
      assert Sorted(xs[1..], key);
      InsertSorted(x, xs[1..], key);
      forall y | y in rest ensures key(xs[0]) <= key(y) {
        InsertMembers(x, xs[1..], key, y);
      }
      SortedCons(xs[0], rest, key);
    }
  }

  /** The stable sort, as an insertion of each element, from the last to the first, in
      front of every later element with the same key. */
  function SortBy<T>(xs: seq<T>, key: T -> int): (r: seq<T>)
    ensures |r| == |xs|
  {
    if |xs| == 0 then [] else Insert(xs[0], SortBy(xs[1..], key), key)
  }

  /** The sort orders by key and keeps every element as often as it occurs. */
  lemma {:induction false} SortBySorts<T>(xs: seq<T>, key: T -> int)
    ensures multiset(SortBy(xs, key)) == multiset(xs)
    ensures Sorted(SortBy(xs, key), key)
    decreases |xs|
  {
    if |xs| > 0 {
      var sorted := SortBy(xs[1..], key);
      SortBySorts(xs[1..], key);
      InsertPermutes(xs[0], sorted, key);
      InsertSorted(xs[0], sorted, key);
      assert xs == [xs[0]] + xs[1..];
    }
  }

  // ---------------------------------------------------------------------------
  // Stability

  /** The elements with key `k` of a sequence with a given first element. */
  lemma KeyedCons<T>(x: T, xs: seq<T>, key: T -> int, k: int)
    ensures Keyed([x] + xs, key, k) == if key(x) == k then [x] + Keyed(xs, key, k) else Keyed(xs, key, k)
  {
    assert ([x] + xs)[1..] == xs;
  }

  /** Inserting `x` adds it in front of the other elements with its key. */
  lemma {:induction false} KeyedInsert<T>(x: T, xs: seq<T>, key: T -> int, k: int)
    ensures Keyed(Insert(x, xs, key), key, k)
            == if key(x) == k then [x] + Keyed(xs, key, k) else Keyed(xs, key, k)
    decreases |xs|
  {
    if |xs| == 0 {
      KeyedCons(x, [], key, k);
      assert [x] + [] == [x];
    } else if key(x) <= key(xs[0]) {
      KeyedCons(x, xs, key, k);
    } else {
      var rest := Insert(x, xs[1..], key);
      InsertPast(x, xs, key);
      KeyedInsert(x, xs[1..], key, k);
      KeyedCons(xs[0], rest, key, k);
      KeyedCons(xs[0], xs[1..], key, k);
      assert [xs[0]] + xs[1..] == xs;
    }
  }

  /** The sort is stable: for every key, the elements with that key appear in the result in
      the order they had in the input. */
  lemma {:induction false} SortByStable<T>(xs: seq<T>, key: T -> int, k: int)
    ensures Keyed(SortBy(xs, key), key, k) == Keyed(xs, key, k)
    decreases |xs|
  {
    if |xs| > 0 {
      SortByStable(xs[1..], key, k);
      KeyedInsert(xs[0], SortBy(xs[1..], key), key, k);
    }
  }

  // ---------------------------------------------------------------------------
  // Uniqueness of the sorted form

  /** In a sorted sequence the first element carries the smallest key. */
  lemma SortedHeadSmallest<T>(s: seq<T>, key: T -> int, y: T)
    requires Sorted(s, key) && y in s
    ensures key(s[0]) <= key(y)
  {
    var i :| 0 <= i < |s| && s[i] == y;
  }

  /** Two sorted orderings of the same elements start alike when keys are distinct. */
  lemma SortedHeadsEqual<T>(s: seq<T>, t: seq<T>, key: T -> int)
    requires Sorted(s, key) && Sorted(t, key)
    requires multiset(s) == multiset(t)
    requires DistinctKeys(s, key)
    requires |s| > 0
    ensures |t| > 0 && s[0] == t[0]
  {
    assert |t| == |multiset(t)| == |s|;
    assert s[0] in multiset(t) && t[0] in multiset(s);
    SortedHeadSmallest(s, key, t[0]);
    SortedHeadSmallest(t, key, s[0]);
    var i :| 0 <= i < |s| && s[i] == t[0];
    assert i == 0;
  }

  /** Equal multisets with equal first elements have equal tails. */
  lemma TailsAlike<T>(s: seq<T>, t: seq<T>)
    requires multiset(s) == multiset(t)
    requires |s| > 0 && |t| > 0 && s[0] == t[0]
    ensures multiset(s[1..]) == multiset(t[1..])
  {
    var ms, mt := multiset(s[1..]), multiset(t[1..]);
    assert multiset(s) == multiset{s[0]} + ms by {
      assert s == [s[0]] + s[1..];
    }
    assert multiset(t) == multiset{s[0]} + mt by {
      assert t == [t[0]] + t[1..];
    }
    assert forall y :: ms[y] == mt[y] by {
      forall y ensures ms[y] == mt[y] {
        assert multiset(s)[y] == multiset{s[0]}[y] + ms[y];
        assert multiset(t)[y] == multiset{s[0]}[y] + mt[y];
      }
    }
  }

  /** Two sorted orderings of the same elements are the same when keys are distinct. */
  lemma {:induction false} SortedUnique<T>(s: seq<T>, t: seq<T>, key: T -> int)
    requires Sorted(s, key) && Sorted(t, key)
    requires multiset(s) == multiset(t)
    requires DistinctKeys(s, key)
    ensures s == t
    decreases |s|
  {
    if |s| > 0 {
      SortedHeadsEqual(s, t, key);
      TailsAlike(s, t);
      SortedUnique(s[1..], t[1..], key);
      assert s == [s[0]] + s[1..] && t == [t[0]] + t[1..];
    } else {
      assert |t| == |multiset(t)| == 0;
    }
  }

  /** Distinct keys stay distinct through an insertion of a new key. */
  lemma {:induction false} InsertDistinct<T>(x: T, xs: seq<T>, key: T -> int)
    requires DistinctKeys(xs, key)
    requires forall y :: y in xs ==> key(y) != key(x)
    ensures DistinctKeys(Insert(x, xs, key), key)
    decreases |xs|
  {
    if |xs| > 0 && key(x) > key(xs[0]) {
      InsertDistinct(x, xs[1..], key);
      var rest := Insert(x, xs[1..], key);
      forall y | y in rest ensures key(y) != key(xs[0]) {
        InsertMembers(x, xs[1..], key, y);
      }
    }
  }

  /** Sorting keeps keys distinct. */
  lemma {:induction false} SortByDistinct<T>(xs: seq<T>, key: T -> int)
    requires DistinctKeys(xs, key)
    ensures DistinctKeys(SortBy(xs, key), key)
    decreases |xs|
  {
    if |xs| > 0 {
      SortByDistinct(xs[1..], key);
      var sorted := SortBy(xs[1..], key);
      SortBySorts(xs[1..], key);
      forall y | y in sorted ensures key(y) != key(xs[0]) {
        assert y in multiset(sorted);
        assert y in xs[1..];
      }
      InsertDistinct(xs[0], sorted, key);
    }
  }

  /** With distinct keys the sort depends only on which elements there are, not on their
      order. */
  lemma SortByPermutation<T>(a: seq<T>, b: seq<T>, key: T -> int)
    requires multiset(a) == multiset(b)
    requires DistinctKeys(a, key)
    ensures SortBy(a, key) == SortBy(b, key)
  {
    SortByDistinct(a, key);
    SortBySorts(a, key);
    SortBySorts(b, key);
    SortedUnique(SortBy(a, key), SortBy(b, key), key);
  }

  // ---------------------------------------------------------------------------
  // Sorting commutes with a map that keeps the key

  function Map<T, U>(xs: seq<T>, f: T -> U): (ys: seq<U>)
    ensures |ys| == |xs|
    ensures forall i :: 0 <= i < |xs| ==> ys[i] == f(xs[i])
  {
    seq(|xs|, i requires 0 <= i < |xs| => f(xs[i]))
  }

  /** Mapping a sequence with a given first element. */
  lemma MapCons<T, U>(y: T, ys: seq<T>, f: T -> U)
    ensures Map([y] + ys, f) == [f(y)] + Map(ys, f)
  {
  }

  lemma {:induction false} InsertMap<T, U>(x: T, xs: seq<T>, f: T -> U, kt: T -> int, ku: U -> int)
    requires forall y :: kt(y) == ku(f(y))
    ensures Map(Insert(x, xs, kt), f) == Insert(f(x), Map(xs, f), ku)
    decreases |xs|
  {
    var m := Map(xs, f);
    if |xs| == 0 {
      assert Map([x], f) == [f(x)];
    } else if kt(x) <= kt(xs[0]) {
      assert ku(f(x)) <= ku(m[0]);
      MapCons(x, xs, f);
    } else {
      assert ku(f(x)) > ku(m[0]);
      var rest := Insert(x, xs[1..], kt);
      InsertPast(x, xs, kt);
      InsertPast(f(x), m, ku);
      InsertMap(x, xs[1..], f, kt, ku);
      MapCons(xs[0], rest, f);
      assert m[1..] == Map(xs[1..], f);
    }
  }

  /** Sorting and then mapping equals mapping and then sorting, when the map keeps keys. */
  lemma {:induction false} SortByMap<T, U>(xs: seq<T>, f: T -> U, kt: T -> int, ku: U -> int)
    requires forall y :: kt(y) == ku(f(y))
    ensures Map(SortBy(xs, kt), f) == SortBy(Map(xs, f), ku)
    decreases |xs|
  {
    if |xs| > 0 {
      var m := Map(xs, f);
      var sorted := SortBy(xs[1..], kt);
      assert SortBy(xs, kt) == Insert(xs[0], sorted, kt);
      SortByMap(xs[1..], f, kt, ku);
      InsertMap(xs[0], sorted, f, kt, ku);
      assert m[0] == f(xs[0]) && m[1..] == Map(xs[1..], f);
      assert SortBy(m, ku) == Insert(m[0], SortBy(m[1..], ku), ku);
    }
  }
}

=== FILE: switch.dfy ===
/** `Layout.switch`: the two-way toggle between the first two saved templates, and
    `Template.load`, which reads those templates. */
module Switching {
  import opened Wrappers
  import opened Text
  import opened ConfigCodec
  import opened LayoutCodec
  import opened Footprints
  import opened TemplateStore

  /** Why no template can be chosen; both are `IndexError`s in dp.py. */
  datatype SwitchError =
    | NoTemplates       // `templates[0]` of an empty list
    | NoSecondTemplate  // `templates[1]` when the live layout matches the only template

  /** The template chosen and the layout the live one becomes. */
  datatype Decision = Decision(index: nat, layout: Layout)

  /** `Layout.switch`: if the live footprint is that of template 0, take template 1's
      configs, otherwise template 0's. */
  function Switch(live: Layout, templates: seq<Layout>, hash: string -> int): (r: Result<Decision, SwitchError>)
    ensures r == Failure(NoTemplates) <==> |templates| == 0
    ensures r == Failure(NoSecondTemplate) <==>
      |templates| == 1 && Footprint(live, hash) == Footprint(templates[0], hash)
    ensures r.Success? ==>
      && r.value.index == (if Footprint(live, hash) == Footprint(templates[0], hash) then 1 else 0)
      && r.value.index < |templates|
      && r.value.layout == templates[r.value.index]
  {
    if |templates| == 0 then Failure(NoTemplates)
    else if Footprint(live, hash) == Footprint(templates[0], hash) then
      if |templates| < 2 then Failure(NoSecondTemplate)
      else Success(Decision(1, Layout(templates[1].configs)))
    else Success(Decision(0, Layout(templates[0].configs)))
  }

  /** With a single template and a live layout that differs from it, the switch applies it. */
  lemma SingleTemplateApplied(live: Layout, t: Layout, hash: string -> int)
    requires Footprint(live, hash) != Footprint(t, hash)
    ensures Switch(live, [t], hash) == Success(Decision(0, t))
  {
  }

  /** Only the first two templates matter. */
  lemma SwitchIgnoresExtraTemplates(live: Layout, templates: seq<Layout>, more: seq<Layout>, hash: string -> int)
    requires |templates| >= 2
    ensures Switch(live, templates + more, hash) == Switch(live, templates, hash)
  {
    assert (templates + more)[0] == templates[0] && (templates + more)[1] == templates[1];
  }

  /** Of the live layout only its footprint matters. */
  lemma SwitchSeesOnlyFootprint(a: Layout, b: Layout, templates: seq<Layout>, hash: string -> int)
    requires Footprint(a, hash) == Footprint(b, hash)
    ensures Switch(a, templates, hash) == Switch(b, templates, hash)
  {
  }

  /** Switching is a toggle: when the two templates have different footprints, switching
      the layout a switch produced picks the other template. */
  lemma SwitchToggles(live: Layout, templates: seq<Layout>, hash: string -> int)
    requires |templates| >= 2
    requires Footprint(templates[0], hash) != Footprint(templates[1], hash)
    ensures Switch(live, templates, hash).Success?
    ensures var d := Switch(live, templates, hash).value;
      && Switch(d.layout, templates, hash).Success?
      && Switch(d.layout, templates, hash).value.index == 1 - d.index
  {
  }

  /** The outcome of parsing each stored line. */
  function ParseLines(raws: seq<string>): (rs: seq<Result<Layout, ParseError>>)
    ensures |rs| == |raws|
    ensures forall i :: 0 <= i < |raws| ==> rs[i] == ParseLayout(raws[i])
  {
    seq(|raws|, i requires 0 <= i < |raws| => ParseLayout(raws[i]))
  }

  /** `Template.load`: each stored line parsed as a layout; the first line that fails to
      parse fails the load with its error. */
  function LoadLayouts(file: Option<seq<string>>): (r: Result<seq<Layout>, ParseError>)
    ensures var raws := LoadRaw(file);
      r.Success? ==> |r.value| == |raws| && forall i :: 0 <= i < |raws| ==> ParseLayout(raws[i]) == Success(r.value[i])
    ensures var raws := LoadRaw(file);
      r.Failure? ==> exists i :: 0 <= i < |raws| && ParseLayout(raws[i]) == Failure(r.error)
                               && forall j :: 0 <= j < i ==> ParseLayout(raws[j]).Success?
  {
    Collect(ParseLines(LoadRaw(file)))
  }

  /** A template applied by its own command is recognised: when the display tool reports
      the command of template 0, the switch moves on to template 1. */
  lemma SwitchAfterTemplateZero(t0: Layout, rest: seq<Layout>, hash: string -> int)
    requires |rest| >= 1
    requires forall i :: 0 <= i < |t0.configs| ==> Clean(t0.configs[i])
    ensures ParseLayout(ToCommand(t0)).Success?
    ensures Switch(ParseLayout(ToCommand(t0)).value, [t0] + rest, hash) == Success(Decision(1, rest[0]))
  {
    FootprintSurvivesCommand(t0, hash);
  }

  /** The template file after `Template.save` has appended each layout in turn: one line per
      layout, its command followed by a line break. */
  function SavedLines(ts: seq<Layout>): (lines: seq<string>)
    ensures |lines| == |ts|
    ensures forall i :: 0 <= i < |ts| ==> lines[i] == ToCommand(ts[i]) + "\n"
  {
    seq(|ts|, i requires 0 <= i < |ts| => ToCommand(ts[i]) + "\n")
  }

  /** A saved line is never blank: it starts with the tool's name. */
  lemma SavedLineNotBlank(l: Layout)
    ensures !Blank(ToCommand(l) + "\n")
  {
    assert (ToCommand(l) + "\n")[0] == 'd';
  }

  /** Loading gives back the saved layouts, in the order they were saved, each as its
      command is read back. */
  lemma LoadSaved(ts: seq<Layout>)
    requires forall i, j :: 0 <= i < |ts| && 0 <= j < |ts[i].configs| ==> Clean(ts[i].configs[j])
    ensures LoadLayouts(Some(SavedLines(ts))).Success?
    ensures |LoadLayouts(Some(SavedLines(ts))).value| == |ts|
    ensures forall i :: 0 <= i < |ts| ==>
      LoadLayouts(Some(SavedLines(ts))).value[i] == Layout(ReparsedAll(ts[i].configs))
  {
    var lines := SavedLines(ts);
    forall i | 0 <= i < |lines| ensures !Blank(lines[i]) {
      SavedLineNotBlank(ts[i]);
    }
    NoBlankLinesKeptWhole(lines);
    var rs := ParseLines(LoadRaw(Some(lines)));
    forall i | 0 <= i < |ts| ensures rs[i] == Success(Layout(ReparsedAll(ts[i].configs))) {
      SavedLineParses(ts[i]);
    }
  }
}

=== FILE: template_store.dfy ===
/** The template file: one saved command per line. Both programs read it by keeping the
    lines that are not blank, unmodified and in file order. The file system itself is not
    modelled; a file is the sequence of its lines as `readlines` returns them (each with
    its line break), or `None` when it does not exist. */
module TemplateStore {
  import opened Wrappers
  import opened Text

  /** A line of whitespace only. */
  predicate Blank(line: string)
  {
    forall i :: 0 <= i < |line| ==> IsSpace(line[i])
  }

  /** The test both programs apply, `if l.strip()`, drops exactly the blank lines. */
  lemma StripEmptyIffBlank(line: string)
    ensures Strip(line) == [] <==> Blank(line)
  {
  }

  /** The lines that are not blank, in order. */
  function NonBlankLines(lines: seq<string>): (kept: seq<string>)
    ensures |kept| <= |lines|
    ensures forall l :: l in kept <==> l in lines && !Blank(l)
  {
    if |lines| == 0 then []
    else
      assert forall l :: l in lines <==> l == lines[0] || l in lines[1..];
      (if Blank(lines[0]) then [] else [lines[0]]) + NonBlankLines(lines[1..])
  }

  /** `a` is `b` with some elements left out. */
  predicate SubsequenceOf<T(==)>(a: seq<T>, b: seq<T>)
    decreases |b|
  {
    if |a| == 0 then true
    else if |b| == 0 then false
    else (a[0] == b[0] && SubsequenceOf(a[1..], b[1..])) || SubsequenceOf(a, b[1..])
  }

  /** The kept lines appear in the file in the same order. */
  lemma {:induction false} NonBlankLinesSubsequence(lines: seq<string>)
    ensures SubsequenceOf(NonBlankLines(lines), lines)
    decreases |lines|
  {
    if |lines| > 0 {
      NonBlankLinesSubsequence(lines[1..]);
      var rest := NonBlankLines(lines[1..]);
      if Blank(lines[0]) {
        assert NonBlankLines(lines) == rest;
        if |rest| > 0 {
          assert SubsequenceOf(rest, lines[1..]);
        }
      } else {
        assert NonBlankLines(lines) == [lines[0]] + rest;
        assert ([lines[0]] + rest)[1..] == rest;
      }
    }
  }

  /** Every non-blank line is kept as often as it occurs; blank lines never are. */
  lemma {:induction false} NonBlankLinesCount(lines: seq<string>, l: string)
    ensures multiset(NonBlankLines(lines))[l] == if Blank(l) then 0 else multiset(lines)[l]
    decreases |lines|
  {
    if |lines| > 0 {
      var head, rest := lines[0], lines[1..];
      NonBlankLinesCount(rest, l);
      assert multiset(lines) == multiset{head} + multiset(rest) by {
        assert lines == [head] + rest;
      }
      if Blank(head) {
        assert NonBlankLines(lines) == NonBlankLines(rest);
      } else {
        assert NonBlankLines(lines) == [head] + NonBlankLines(rest);
        assert multiset(NonBlankLines(lines)) == multiset{head} + multiset(NonBlankLines(rest));
      }
    }
  }

  /** The filter works line by line: filtering two pieces of a file and concatenating is
      filtering the whole. */
  lemma {:induction false} NonBlankLinesAppend(a: seq<string>, b: seq<string>)
    ensures NonBlankLines(a + b) == NonBlankLines(a) + NonBlankLines(b)
    decreases |a|
  {
    if |a| == 0 {
      assert a + b == b;
    } else {
      assert (a + b)[0] == a[0];
      assert (a + b)[1..] == a[1..] + b;
      NonBlankLinesAppend(a[1..], b);
    }
  }

  /** A file without blank lines is read whole. */
  lemma {:induction false} NoBlankLinesKeptWhole(lines: seq<string>)
    requires forall i :: 0 <= i < |lines| ==> !Blank(lines[i])
    ensures NonBlankLines(lines) == lines
    decreases |lines|
  {
    if |lines| > 0 {
      NoBlankLinesKeptWhole(lines[1..]);
      assert [lines[0]] + lines[1..] == lines;
    }
  }

  /** Filtering twice is filtering once. */
  lemma NonBlankLinesIdempotent(lines: seq<string>)
    ensures NonBlankLines(NonBlankLines(lines)) == NonBlankLines(lines)
  {
    var kept := NonBlankLines(lines);
    assert forall i :: 0 <= i < |kept| ==> kept[i] in kept;
    NoBlankLinesKeptWhole(kept);
  }

  /** `Template.load_raw` (dp.py): nothing when the file does not exist, else its non-blank
      lines. */
  function LoadRaw(file: Option<seq<string>>): (raws: seq<string>)
    ensures file.None? ==> raws == []
    ensures forall l :: l in raws <==> file.Some? && l in file.value && !Blank(l)
  {
    match file
    case None => []
    case Some(lines) => NonBlankLines(lines)
  }

  /** `load_templates` (filter.py): the file is created empty when missing, then its
      non-blank lines are read. */
  function LoadTemplates(file: Option<seq<string>>): (raws: seq<string>)
    ensures forall l :: l in raws ==> !Blank(l)
  {
    var lines := if file.Some? then file.value else [];
    NonBlankLines(lines)
  }

  /** The two programs read the same lines from the same file. */
  lemma LoadersAgree(file: Option<seq<string>>)
    ensures LoadRaw(file) == LoadTemplates(file)
    ensures SubsequenceOf(LoadRaw(file), if file.Some? then file.value else [])
  {
    NonBlankLinesSubsequence(if file.Some? then file.value else []);
  }
}

=== FILE: text.dfy ===
/** The string primitives the program borrows from Python's `str`:
    `split(sep)`, `split(sep, 1)`, `' '.join`, `startswith`, `strip` and `str(int)`. */
module Text {

  /** Index of the first `c` in `s`, or `|s|` when `s` has none. */
  function IndexOf(s: string, c: char): (k: nat)
    ensures k <= |s|
    ensures k < |s| ==> s[k] == c
    ensures forall i :: 0 <= i < k ==> s[i] != c
  {
    if |s| == 0 then 0
    else if s[0] == c then 0
    else 1 + IndexOf(s[1..], c)
  }

  /** The first `c` of `a + [c] + b` is the one between them when `a` holds none. */
  lemma IndexOfSeparator(a: string, c: char, b: string)
    requires c !in a
    ensures IndexOf(a + [c] + b, c) == |a|
  {
    var s := a + [c] + b;
    assert s[|a|] == c;
    assert forall i :: 0 <= i < |a| ==> s[i] == a[i];
  }

  lemma Assoc(x: string, y: string, z: string)
    ensures x + y + z == x + (y + z)
  {
  }

  /** `sep.join(parts)` for a one-character separator. */
  function Join(parts: seq<string>, sep: char): string
  {
    if |parts| == 0 then ""
    else if |parts| == 1 then parts[0]
    else parts[0] + [sep] + Join(parts[1..], sep)
  }

  /** Python's `s.split(sep)` with an explicit separator: every occurrence cuts, so
      neighbouring separators yield empty pieces and `""` splits into `[""]`. */
  function Split(s: string, sep: char): (parts: seq<string>)
    ensures |parts| >= 1
    ensures forall i :: 0 <= i < |parts| ==> sep !in parts[i]
    ensures Join(parts, sep) == s
    decreases |s|
  {
    var k := IndexOf(s, sep);
    if k == |s| then [s]
    else
      assert s == s[..k] + [sep] + s[k + 1..];
      [s[..k]] + Split(s[k + 1..], sep)
  }

  /** Text without the separator is one piece. */
  lemma SplitWhole(s: string, sep: char)
    requires sep !in s
    ensures Split(s, sep) == [s]
  {
  }

  /** Joining two non-empty lists puts one separator between their joins. */
  lemma {:induction false} JoinAppend(p: seq<string>, q: seq<string>, sep: char)
    requires |p| >= 1 && |q| >= 1
    ensures Join(p + q, sep) == Join(p, sep) + [sep] + Join(q, sep)
    decreases |p|
  {
    if |p| == 1 {
      assert (p + q)[1..] == q;
    } else {
      assert (p + q)[1..] == p[1..] + q;
      JoinAppend(p[1..], q, sep);
    }
  }

  /** Appending one piece appends the separator and the piece. */
  lemma JoinSnoc(p: seq<string>, x: string, sep: char)
    requires |p| >= 1
    ensures Join(p + [x], sep) == Join(p, sep) + [sep] + x
  {
    JoinAppend(p, [x], sep);
  }

  /** `split` undoes `join` when no piece holds the separator. */
  lemma {:induction false} SplitJoin(parts: seq<string>, sep: char)
    requires |parts| >= 1
    requires forall i :: 0 <= i < |parts| ==> sep !in parts[i]
    ensures Split(Join(parts, sep), sep) == parts
    decreases |parts|
  {
    if |parts| == 1 {
      var s := parts[0];
      assert IndexOf(s, sep) == |s|;
    } else {
      var s := Join(parts, sep);
      var rest := Join(parts[1..], sep);
      assert s == parts[0] + [sep] + rest;
      IndexOfSeparator(parts[0], sep, rest);
      assert s[..|parts[0]|] == parts[0];
      assert s[|parts[0]| + 1..] == rest;
      SplitJoin(parts[1..], sep);
    }
  }

  /** Splitting distributes over a separator placed between two strings. */
  lemma SplitAppend(a: string, b: string, sep: char)
    ensures Split(a + [sep] + b, sep) == Split(a, sep) + Split(b, sep)
  {
    var p, q := Split(a, sep), Split(b, sep);
    JoinAppend(p, q, sep);
    assert Join(p + q, sep) == a + [sep] + b;
    PiecesFree(p, q, sep);
    SplitJoin(p + q, sep);
  }

  /** Two lists of separator-free pieces concatenate to one. */
  lemma PiecesFree(p: seq<string>, q: seq<string>, sep: char)
    requires forall i :: 0 <= i < |p| ==> sep !in p[i]
    requires forall i :: 0 <= i < |q| ==> sep !in q[i]
    ensures forall i :: 0 <= i < |p + q| ==> sep !in (p + q)[i]
  {
    forall i | 0 <= i < |p + q|
      ensures sep !in (p + q)[i]
    {
      if i < |p| { assert (p + q)[i] == p[i]; } else { assert (p + q)[i] == q[i - |p|]; }
    }
  }

  /** Python's `s.split(sep, 1)`: `[s]` without a separator, else the text before and after
      the first one. */
  function SplitOnce(s: string, sep: char): (parts: seq<string>)
    ensures |parts| == 1 <==> sep !in s
    ensures |parts| == 1 ==> parts[0] == s
    ensures |parts| == 2 ==> sep !in parts[0] && parts[0] + [sep] + parts[1] == s
    ensures |parts| == 1 || |parts| == 2
  {
    var k := IndexOf(s, sep);
    if k == |s| then [s]
    else
      assert s == s[..k] + [sep] + s[k + 1..];
      [s[..k], s[k + 1..]]
  }

  /** The split at the first separator recovers a separator-free key. */
  lemma SplitOnceKey(key: string, sep: char, value: string)
    requires sep !in key
    ensures SplitOnce(key + [sep] + value, sep) == [key, value]
  {
    IndexOfSeparator(key, sep, value);
    var s := key + [sep] + value;
    assert s[..|key|] == key;
    assert s[|key| + 1..] == value;
  }

  /** Python's `s.startswith(prefix)`. */
  predicate StartsWith(s: string, prefix: string)
  {
    |prefix| <= |s| && s[..|prefix|] == prefix
  }

  /** The characters Python's `str.strip()` removes (`str.isspace`). */
  predicate IsSpace(c: char)
  {
    || '\t' <= c <= '\r'
    || '\U{1C}' <= c <= ' '
    || c == '\U{85}' || c == '\U{A0}' || c == '\U{1680}'
    || '\U{2000}' <= c <= '\U{200A}'
    || c == '\U{2028}' || c == '\U{2029}' || c == '\U{202F}' || c == '\U{205F}'
    || c == '\U{3000}'
  }

  /** Number of leading white-space characters. */
  function LeadingSpaces(s: string): (k: nat)
    ensures k <= |s|
    ensures forall i :: 0 <= i < k ==> IsSpace(s[i])
    ensures k < |s| ==> !IsSpace(s[k])
  {
    if |s| == 0 || !IsSpace(s[0]) then 0 else 1 + LeadingSpaces(s[1..])
  }

  /** Number of trailing white-space characters. */
  function TrailingSpaces(s: string): (k: nat)
    ensures k <= |s|
    ensures forall i :: |s| - k <= i < |s| ==> IsSpace(s[i])
    ensures k < |s| ==> !IsSpace(s[|s| - k - 1])
  {
    if |s| == 0 || !IsSpace(s[|s| - 1]) then 0 else 1 + TrailingSpaces(s[..|s| - 1])
  }

  /** Python's `s.strip()`: the text between the first and the last non-space character:
      the leading white space (`LeadingSpaces`) and the trailing white space are removed. */
  function Strip(s: string): (r: string)
    ensures r == [] <==> forall i :: 0 <= i < |s| ==> IsSpace(s[i])
    ensures r != [] ==> !IsSpace(r[0]) && !IsSpace(r[|r| - 1])
    ensures LeadingSpaces(s) + |r| <= |s| && r == s[LeadingSpaces(s)..LeadingSpaces(s) + |r|]
    ensures forall i :: LeadingSpaces(s) + |r| <= i < |s| ==> IsSpace(s[i])
  {
    var a := LeadingSpaces(s);
    var t := s[a..];
    var k := TrailingSpaces(t);
    SpacesAfter(s, a, k);
    t[..|t| - k]
  }

  /** The trailing white space of a suffix is trailing white space of the whole. */
  lemma SpacesAfter(s: string, a: nat, k: nat)
    requires a <= |s| && k <= |s| - a
    requires forall i :: |s[a..]| - k <= i < |s[a..]| ==> IsSpace(s[a..][i])
    ensures forall i :: |s| - k <= i < |s| ==> IsSpace(s[i])
    ensures s[a..][..|s| - a - k] == s[a..|s| - k]
  {
    forall i | |s| - k <= i < |s| ensures IsSpace(s[i]) {
      assert s[i] == s[a..][i - a];
    }
  }

  /** The decimal digit for `d`. */
  function Digit(d: nat): char
    requires d < 10
  {
    "0123456789"[d]
  }

  /** `str(n)` for a non-negative integer: its decimal digits, most significant first. */
  function NatText(n: nat): (s: string)
    ensures |s| >= 1
    ensures forall i :: 0 <= i < |s| ==> '0' <= s[i] <= '9'
    ensures n > 0 ==> s[0] != '0'
  {
    if n < 10 then [Digit(n)] else NatText(n / 10) + [Digit(n % 10)]
  }

  /** The value of a string of decimal digits. */
  function DigitsValue(s: string): nat
    requires forall i :: 0 <= i < |s| ==> '0' <= s[i] <= '9'
  {
    if |s| == 0 then 0
    else DigitsValue(s[..|s| - 1]) * 10 + ((s[|s| - 1] as int) - ('0' as int))
  }

  /** Reading the decimal text back yields the number. */
  lemma {:induction false} NatTextValue(n: nat)
    ensures DigitsValue(NatText(n)) == n
  {
    var s := NatText(n);
    if n < 10 {
      assert s[..0] == [];
    } else {
      assert s[..|s| - 1] == NatText(n / 10);
      NatTextValue(n / 10);
    }
  }

  /** Distinct numbers have distinct decimal texts. */
  lemma NatTextInjective(a: nat, b: nat)
    requires NatText(a) == NatText(b)
    ensures a == b
  {
    NatTextValue(a);
    NatTextValue(b);
  }
}

=== FILE: wrappers.dfy ===
/** Failure-carrying return types shared by the codecs and the switch. */
module Wrappers {

  /** `None` stands for "absent"; in a `Config` it stands for the dataclass default. */
  datatype Option<+T> = None | Some(value: T)

  /** The outcome of an operation that raises in the program. */
  datatype Result<+R, +E> = Success(value: R) | Failure(error: E)
}
